=== FILE: README.md ===
# Telemedicine rooms and signaling, modelled in Dafny

This project models the core of a telemedicine server. A doctor opens a
password-protected consultation room. A patient verifies the password over
HTTP and joins over the realtime channel. The server then relays WebRTC
offers, answers and ICE candidates between the two, without reading them.
When a call ends or times out, the room's status becomes ended. A room
past its expiry keeps its status; it is refused and unlisted, and the
periodic sweep deletes it.

The modules follow the server's structure:

- `Common` (common.dfy): optional values and request fields. A field is
  *present* in the JavaScript sense, so both missing and `""` count as absent.
- `Rooms` (rooms.dfy): the `rooms` row and the pure rules of the room
  service. These are code generation, the password-verification chain, the
  expiry comparisons, the active-room filter, the sweep predicate, and the
  effect of every write on the table (`map<RoomId, Room>`). It also holds
  the table-level facts about the two create paths: the HTTP controller's
  supersede step (`AfterSupersede`, `SupersedeLeavesOneLiveRoom`,
  `SupersedeEndsOnlyTheLatest`) and the realtime path's insert without it
  (`InsertWithoutSupersede`).
- `RoomService` (room_service.dfy): the `RoomStore` class. It holds the
  table and has one method per service operation. Each write method states
  the new table as a pure function of the old one: a `Rooms` table
  function, or `CleanupEffect` for the delayed cleanup. Each query method
  states what it returns about the current table.
- `RoomController` (room_controller.dfy): the HTTP room endpoints, which
  validate the request and then call the store in order.
- `AuthController` (auth_controller.dfy): the input guards of register,
  login and refresh.
- `AuthMiddleware` (auth_middleware.dfy): extraction of the bearer token
  from the header, and the role gates.
- `Signaling` (signaling.dfy): the realtime coordinator.
  - The `SignalingHub` class holds the connection registry (room code to
    doctor socket, patient socket, last activity and room id) and the
    transport's room membership.
  - A `Socket` holds its room binding.
  - There is one method per inbound event.
  - A disconnect arms one inactivity check, due two minutes later, and
    returns it as an `ArmedCheck`. `FireTimeout(code, now)` is that check
    firing: it re-checks staleness once and is never re-armed, so a check
    that finds the entry fresh ends nothing.
  - The ten-minute interval is `SweepTick(now)`.
  - Outbound messages are returned as values that name their recipients.
  - A replay model (`RegistryStep`, `Replay`) lets the timeout properties
    cover any sequence of handler calls.
- `Walkthrough` (walkthrough.dfy): one consultation driven through the
  handlers. A wrong password is refused and the right one admits the
  patient. The doctor's offer reaches only the patient. The patient then
  drops, and the one check that drop arms fires two minutes later. It ends
  the room when the drop came after the offer. When the drop came in the
  same millisecond as the offer, the check sees exactly two minutes of
  silence, does nothing, and the room stays active.

Collaborators become parameters:

- Time is `now`, in milliseconds. The database's `NOW()` and the server's
  `Date.now()` are the same value.
- The bcrypt comparison is a function `matches(password, hash)`.
- JWT verification is a function from a token to an optional identity.
- The random bytes of a room code, the generated code, the new row's id and
  the password hash are all inputs.

Behaviour modelled as the code has it, including places where a reader
might expect otherwise:

- The realtime create-room path has no role check and no supersede step.
  It always asks for capacity 2 and ignores the code the client sends.
- A join with the password `already-verified` checks only that the room
  exists. It then marks the room active, even when the room has ended or
  expired. `Signaling.BypassReopensDeadRoom` states this next to the fact
  that every real password is refused for the same room.
- The HTTP supersede step ends only the doctor's latest live room. A doctor
  who already had two live rooms, for instance from the realtime create
  path, keeps the older one live next to the new room
  (`Rooms.SupersedeEndsOnlyTheLatest`). The bypass join above can also
  bring back a second live room.
- `updateRoomStatus` has no transition guard. `endRoom` therefore succeeds
  again on a room that is already ended.
- The join acknowledgement returns the room *code* in its `roomId` field.
- Relay, end-call and disconnect use the room code sent by the client or
  bound to the socket. The sender does not have to be a registered
  participant.
- end-call does not clear the socket's binding.
- The timeout leaves the registry entry in place when the room row no
  longer exists.
- Room capacity is stored but never enforced.

## Model

| member | source | states |
|---|---|---|
| Rooms.GenerateRoomCode | server/src/services/roomService.js:6-8 | every generated code is 8 characters, each 0-9 or A-F |
| Rooms.ToHex | server/src/services/roomService.js:7 | hex encoding gives two lower-case hex digits per byte |
| Rooms.ToUpperCase | server/src/services/roomService.js:7 | upper-casing keeps the length and upper-cases each character in place |
| Rooms.RoomCodeRoundTrip | server/src/services/roomService.js:6-8 | decoding a generated code gives back the four random bytes |
| Rooms.RoomCodeInjective | server/src/services/roomService.js:6-8 | different random bytes never give the same code |
| Rooms.NewRoom | server/src/services/roomService.js:10-29 | the inserted row is waiting, created now, expires exactly two hours later, has capacity 2 when none is given, and is listed and safe from the sweep at creation |
| Rooms.ExpiryBoundary | server/src/services/roomService.js:57-76 | a room expiring exactly now is neither rejected as expired nor listed |
| Rooms.ListedIsUnexpired | server/src/services/roomService.js:56-57 | a listed room is never ended and never expired in the verification sense |
| Rooms.VerifyRoomPassword | server/src/services/roomService.js:65-87 | success if and only if the room exists, is not ended, is not expired and the password matches; each refusal holds exactly when the earlier checks pass and its own check fails (not found, ended, expired, invalid password, in that order) |
| Rooms.DeadRoomRefusesEveryPassword | server/src/services/roomService.js:72-78 | an ended or expired room is refused for every password and every hash comparison, with the same answer |
| Rooms.LookupCode | server/src/services/roomService.js:32-36 | returns the row with that code exactly when one exists; the code is unique, so it is that row |
| Rooms.LookupId | server/src/services/roomService.js:38-42 | returns the row stored under that id, or nothing when there is none |
| Rooms.Insert | server/src/services/roomService.js:15-29 | the table gains exactly the new id, keeps every other row, stays well formed, and the new row is found by its code |
| Rooms.WithStatus | server/src/services/roomService.js:89-93 | only the status of the row with that id changes; no other row or field changes; an unknown id changes nothing |
| Rooms.StatusChangeKeepsLookup | server/src/services/roomService.js:89-93 | after a status change every code is still found, as the same room with the same doctor |
| Rooms.WithStatusIdempotent | server/src/services/roomService.js:89-93 | writing the same status twice is the same as writing it once |
| Rooms.Delete | server/src/services/roomService.js:95-98 | removes exactly that id and keeps every other row unchanged |
| Rooms.Swept | server/src/services/roomService.js:100-106 | a row survives the sweep if and only if it is not expired, not an ended room older than 2 minutes, and not a waiting room older than 30 minutes |
| Rooms.SweepSparesActiveRooms | server/src/services/roomService.js:100-106 | an active room that has not passed its expiry is never deleted |
| Rooms.SweepIdempotent | server/src/services/roomService.js:100-106 | sweeping twice at the same instant is the same as sweeping once |
| Rooms.SweepAtTheSecond | server/src/services/roomService.js:103 | a row that expired one second ago is deleted; an active row that expires in one second is kept |
| Rooms.SweepBeforeExpiry | server/src/services/roomService.js:100-106 | for a row `createRoom` made, one second before its two-hour expiry the sweep deletes it exactly when it is not active, since a waiting or ended row is past its grace period by then |
| Rooms.ListingMembership | server/src/services/roomService.js:56-58 | a listing contains exactly the stored waiting or active rooms that have not expired |
| Rooms.InsertNewestFirst | server/src/services/roomService.js:58 | inserting a row keeps the list newest first and adds exactly that row |
| Rooms.AfterSupersede | server/src/controllers/roomController.js:18-22 | the supersede step ends the doctor's latest live room, leaves every other row unchanged, keeps the key set and keeps the table well formed |
| Rooms.SupersedeLeavesOneLiveRoom | server/src/controllers/roomController.js:17-24 | when the doctor had at most one live room before, ending the latest live room and then inserting leaves the new room as the doctor's only live room |
| Rooms.SupersedeEndsOnlyTheLatest | server/src/controllers/roomController.js:17-24 | when the doctor already had two live rooms, the supersede step ends only the latest, so the older one and the new room are both live afterwards |
| Rooms.InsertWithoutSupersede | server/src/socket/signalingHandler.js:13-17 | without the supersede step, a second room leaves the doctor with two live rooms |
| RoomService.RoomStore.CreateRoom | server/src/services/roomService.js:10-30 | fails, with no change, exactly when the id or the code is already taken; otherwise returns the new row and inserts it |
| RoomService.RoomStore.GetRoomByCode | server/src/services/roomService.js:32-36 | returns the row with that code, if one exists |
| RoomService.RoomStore.GetRoomById | server/src/services/roomService.js:38-42 | returns the row with that id, if one exists |
| RoomService.RoomStore.GetActiveRooms | server/src/services/roomService.js:44-63 | returns every waiting or active, unexpired row exactly once, newest first |
| RoomService.RoomStore.VerifyRoomPassword | server/src/services/roomService.js:65-87 | applies the verification chain to the row found by the code |
| RoomService.RoomStore.UpdateRoomStatus | server/src/services/roomService.js:89-93 | the new table is the old one with only that row's status changed |
| RoomService.RoomStore.DeleteRoom | server/src/services/roomService.js:95-98 | the new table is the old one without that id |
| RoomService.RoomStore.DeleteExpiredRooms | server/src/services/roomService.js:100-111 | the new table is the swept table, and the count is the number of rows removed |
| RoomService.RoomStore.FireRoomCleanup | server/src/services/roomService.js:113-125 | the cleanup callback ends the room unless it is missing or already ended |
| RoomService.CleanupEffect | server/src/services/roomService.js:116-118 | keeps the key set and every other row; an existing room is ended afterwards whatever its status was, so the conditional write is idempotent |
| RoomService.CleanupIdempotent | server/src/services/roomService.js:116-118 | a second cleanup changes nothing, and afterwards an existing room is ended |
| RoomService.RoomStore.GetDoctorActiveRoom | server/src/services/roomService.js:127-138 | returns nothing exactly when the doctor has no live room; otherwise returns one of the doctor's live rooms with the latest creation time |
| RoomController.CreateRoomGuard | server/src/controllers/roomController.js:9-15 | passes exactly for a present password and the doctor role; a missing password gives 400 before the role is checked, and any other role gives 403 |
| RoomController.CreateRoom | server/src/controllers/roomController.js:4-35 | a guard refusal changes nothing; otherwise the doctor's latest live room is ended before the insert; a key clash gives 500; success gives 201 with the new row, which is then the doctor's only live room when the doctor had at most one live room before |
| RoomController.GetActiveRooms | server/src/controllers/roomController.js:37-44 | responds 200 with the active-room listing |
| RoomController.VerifyRoom | server/src/controllers/roomController.js:46-75 | a missing code or password gives 400; a service refusal gives 401 with the service's reason; success gives 200 with the id and code of a joinable room |
| RoomController.EndRoomCheck | server/src/controllers/roomController.js:83-96 | passes exactly for a present code whose room exists and belongs to the caller; otherwise gives 400, 404 or 403, in that order |
| RoomController.EndRoom | server/src/controllers/roomController.js:78-108 | a refusal changes nothing; the owner's call sets the room to ended, whatever its status was |
| RoomController.EndRoomRepeatable | server/src/controllers/roomController.js:98-103 | after the room is ended, the same owner's call passes the guards again and the room is ended |
| AuthController.Utf16Length | server/src/controllers/authController.js:14 | the JavaScript length of a string: between its number of characters and twice that, and equal to it exactly when no character lies outside the Basic Multilingual Plane |
| AuthController.Utf16LengthAppend | server/src/controllers/authController.js:14 | the length of a concatenation is the sum of the lengths |
| AuthController.RegisterGuard | server/src/controllers/authController.js:10-22 | passes exactly when all four fields are present, the password is at least 8 UTF-16 code units long and the role is doctor or patient; the refusals come in that order |
| AuthController.RegisterBoundaries | server/src/controllers/authController.js:14-20 | a password of eight code units passes, one of seven is refused with the length message, and the admin role is refused |
| AuthController.AstralPasswordIsLongEnough | server/src/controllers/authController.js:14 | four characters outside the Basic Multilingual Plane are fewer than eight characters but eight code units, so the password passes |
| AuthController.LoginGuard | server/src/controllers/authController.js:47-49 | passes exactly when both email and password are present; otherwise 400 |
| AuthController.RefreshGuard | server/src/controllers/authController.js:69-71 | passes exactly when the refresh token is present; otherwise 400 |
| AuthMiddleware.Split | server/src/middleware/authMiddleware.js:8 | splitting on single spaces gives at least one piece, and no piece contains a space |
| AuthMiddleware.JoinSplit | server/src/middleware/authMiddleware.js:8 | joining the pieces with single spaces gives back the header |
| AuthMiddleware.SplitJoin | server/src/middleware/authMiddleware.js:8 | splitting a join of space-free pieces gives back the pieces |
| AuthMiddleware.ExtractToken | server/src/middleware/authMiddleware.js:7-14 | a token exists exactly when the header is present and its second space-separated piece exists and is non-empty; that piece is the token |
| AuthMiddleware.TokenIsSecondField | server/src/middleware/authMiddleware.js:7-8 | whatever the first word is, the second field is the token |
| AuthMiddleware.DoubleSpaceHasNoToken | server/src/middleware/authMiddleware.js:8-14 | a double space after the scheme leaves no token |
| AuthMiddleware.SingleWordHasNoToken | server/src/middleware/authMiddleware.js:8-14 | a header without a space has no token |
| AuthMiddleware.AuthenticateToken | server/src/middleware/authMiddleware.js:4-27 | no token gives 401; a token that fails verification gives 403; otherwise the request proceeds with the decoded identity |
| AuthMiddleware.RequireDoctor | server/src/middleware/authMiddleware.js:30-37 | passes exactly the doctor role; anything else gets 403 "Doctors only" |
| AuthMiddleware.RequirePatient | server/src/middleware/authMiddleware.js:40-47 | passes exactly the patient role; anything else gets 403 "Patients only" |
| AuthMiddleware.RoleGatesExclusive | server/src/middleware/authMiddleware.js:30-47 | no identity passes both gates, and any other role passes neither |
| Signaling.Touch | server/src/socket/signalingHandler.js:194-199 | refreshes the activity of that code's entry only; the key set and every other entry are unchanged; a missing entry stays missing |
| Signaling.SetPatient | server/src/socket/signalingHandler.js:67-71 | overwrites the patient and refreshes the activity of an existing entry only; it never creates an entry |
| Signaling.ActivityFloor | server/src/socket/signalingHandler.js:168-172 | while no step runs backwards in time, an entry's last activity never falls below a time it reached |
| Signaling.ActivityCancelsCheck | server/src/socket/signalingHandler.js:170-172 | after activity at t, a check firing at most two minutes after t finds the entry fresh and so ends nothing, whatever steps ran in between |
| Signaling.OtherRoomsLeaveEntry | server/src/socket/signalingHandler.js:23-28 | steps for other room codes leave this code's entry exactly as it was |
| Signaling.SilenceKeepsStale | server/src/socket/signalingHandler.js:170-178 | once an entry has been silent past the window, steps for other rooms keep it stale |
| Signaling.Enter | server/src/socket/signalingHandler.js:19 | joining adds exactly this socket to this room's members |
| Signaling.LeaveAll | server/src/socket/signalingHandler.js:161-165 | a disconnected socket is removed from every room, and no other member is removed |
| Signaling.OthersIn | server/src/socket/signalingHandler.js:113-116 | the recipients of a relay are exactly the room's members other than the sender |
| Signaling.RelayIsPointToPoint | server/src/socket/signalingHandler.js:110-136 | in a room of one doctor and one patient, each relay reaches exactly the other party |
| Signaling.JoinDecision | server/src/socket/signalingHandler.js:57-92 | with the bypass value, admission is decided by existence alone; otherwise the full verification chain decides; an admission names the found room |
| Signaling.BypassReopensDeadRoom | server/src/socket/signalingHandler.js:74-91 | the bypass admits an ended or expired room and marks it active, while every real password is refused for that room |
| Signaling.SignalingHub.BroadcastRooms | server/src/socket/signalingHandler.js:33-34 | broadcasts the current active-room listing to everyone |
| Signaling.SignalingHub.CreateRoom | server/src/socket/signalingHandler.js:11-40 | with capacity 2 and the client's code ignored, inserts the room, binds the socket, adds a registry entry for the creator (no patient, activity now, the new id) and broadcasts the listing; a key clash changes nothing |
| Signaling.SignalingHub.GetRooms | server/src/socket/signalingHandler.js:43-50 | returns the active-room listing |
| Signaling.SignalingHub.JoinRoom | server/src/socket/signalingHandler.js:53-107 | a refusal returns the reason and changes nothing; admission binds the socket, fills the patient slot of an existing entry, marks the room active, tells the other members, and acknowledges with the code |
| Signaling.SignalingHub.UpdateActivity | server/src/socket/signalingHandler.js:194-199 | refreshes that code's entry only |
| Signaling.SignalingHub.Offer | server/src/socket/signalingHandler.js:110-117 | refreshes that code's entry and forwards the offer unchanged, tagged with the sender, to the room's other members |
| Signaling.SignalingHub.Answer | server/src/socket/signalingHandler.js:120-127 | refreshes that code's entry and forwards the answer unchanged, tagged with the sender, to the room's other members |
| Signaling.SignalingHub.IceCandidate | server/src/socket/signalingHandler.js:130-136 | refreshes that code's entry and forwards the candidate unchanged, tagged with the sender, to the room's other members |
| Signaling.SignalingHub.EndCall | server/src/socket/signalingHandler.js:139-158 | does nothing for an unbound socket; otherwise ends the room if it exists, tells the other members, removes the entry and broadcasts the listing |
| Signaling.SignalingHub.Disconnect | server/src/socket/signalingHandler.js:161-188 | removes the socket from every room, tells the other members of its bound room, keeps the entry, and arms one check, due two minutes after the disconnect, exactly when an entry exists |
| Signaling.SignalingHub.FireTimeout | server/src/socket/signalingHandler.js:170-186 | only when the entry exists, has been silent for more than 120000 ms and the room exists: ends the room, tells the room, removes the entry and broadcasts the listing; otherwise changes nothing |
| Signaling.SignalingHub.SweepTick | server/src/socket/signalingHandler.js:202-204 | the table becomes the swept table and the registry is untouched |
| Walkthrough.Consultation | server/src/socket/signalingHandler.js:53-186 | in one consultation, a wrong password is refused, the right one admits the patient and notifies only the doctor, and the offer reaches only the patient; the one check armed by the patient's drop ends the room exactly when the drop came after the offer, and otherwise does nothing and leaves the room active |

## Left out

- Network I/O, Socket.IO delivery and acknowledgement callbacks. Deliveries are returned values that name their recipients, and nothing is actually sent.
- Concurrency and async interleaving. Each event handler runs as one atomic step, so a timer that fires between the awaits of another handler is not modelled.
- Real timers. The two-minute check and the ten-minute sweep are methods the caller fires with the current time, and a timer the handler never arms is never fired.
- bcrypt hashing and comparison, and JWT signing and verification. They are function parameters, so a hash or comparison that throws (for example a missing password reaching bcrypt) is not modelled.
- The SQL error path other than a duplicate key. A failed query, a dropped pool connection and the resulting 500 responses are outside the model.
- The handshake token check on the socket server. The socket's identity is given when the socket is constructed, and server/src/server.js is not part of this model.
- The auth service (server/src/services/authService.js), the rate limiter, the TURN configuration, the profile endpoint and console logging. None of them are part of this model.
- RoomService.RoomStore.GetActiveRooms: returns whole rows. The query's projected columns and the doctor's name, email and licence number, joined from `users`, are not modelled.
- Rooms.NewRoom: only an absent capacity defaults to 2. A capacity sent explicitly as `null` would be stored as NULL, and that is not modelled.
- Rooms.ToUpperCase: covers ASCII letters only. Hex output never contains any other letters.
- Signaling.SignalingHub.CreateRoom: a failed insert is reported with one fixed duplicate-key message, not the database's exact text.
- RoomController.CreateRoom: likewise reports a failed insert with the fixed duplicate-key message, not the database's exact text.
- The relayed offer, answer and candidate payloads are opaque strings, and their structure is not inspected.
- The `encryption_enabled` column is not modelled, because no core operation reads it.
- The `users` table is not modelled. The listing's join only adds columns (see above), and the foreign key on `doctor_id` is taken to hold because identities come from issued tokens.

=== FILE: auth_controller.dfy ===
/**
 * The input guards in front of the authentication service. Each guard
 * either rejects the request with a status and a message or lets it reach
 * the service.
 */
module AuthController {
  import opened Common

  datatype Guard = Pass | Reject(status: int, error: string)

  const MinPasswordLength := 8

  /**
   * `String.prototype.length`: the number of UTF-16 code units, two for a
   * character outside the Basic Multilingual Plane and one for any other.
   */
  function Utf16Length(s: string): (n: nat)
    ensures |s| <= n <= 2 * |s|
    ensures n == |s| <==> forall i :: 0 <= i < |s| ==> s[i] as int < 0x10000
  {
    if s == [] then 0
    else (if s[0] as int >= 0x10000 then 2 else 1) + Utf16Length(s[1..])
  }

  /** The length of a concatenation is the sum of the lengths. */
  lemma {:induction false} Utf16LengthAppend(a: string, b: string)
    ensures Utf16Length(a + b) == Utf16Length(a) + Utf16Length(b)
  {
    if a == [] {
      assert a + b == b;
    } else {
      assert (a + b)[1..] == a[1..] + b;
      Utf16LengthAppend(a[1..], b);
    }
  }

  predicate IsRegistrableRole(role: string) {
    role == DoctorRole || role == PatientRole
  }

  /**
   * The guards of `register`, in order: all four fields present, then the
   * password length, then the role. Only a request passing all three reaches
   * the service.
   */
  function RegisterGuard(email: Field, password: Field, fullName: Field, role: Field): (g: Guard)
    ensures g.Pass? <==>
              Present(email) && Present(password) && Present(fullName) && Present(role) &&
              Utf16Length(password.value) >= MinPasswordLength && IsRegistrableRole(role.value)
    ensures !(Present(email) && Present(password) && Present(fullName) && Present(role)) ==>
              g == Reject(400, "Missing required fields")
    ensures Present(email) && Present(password) && Present(fullName) && Present(role) &&
            Utf16Length(password.value) < MinPasswordLength ==>
              g == Reject(400, "Password must be at least 8 characters")
    ensures Present(email) && Present(password) && Present(fullName) && Present(role) &&
            Utf16Length(password.value) >= MinPasswordLength && !IsRegistrableRole(role.value) ==>
              g == Reject(400, "Invalid role")
  {
    if !Present(email) || !Present(password) || !Present(fullName) || !Present(role) then
      Reject(400, "Missing required fields")
    else if Utf16Length(password.value) < MinPasswordLength then
      Reject(400, "Password must be at least 8 characters")
    else if !IsRegistrableRole(role.value) then
      Reject(400, "Invalid role")
    else
      Pass
  }

  /** The guard of `login`: both email and password present. */
  function LoginGuard(email: Field, password: Field): (g: Guard)
    ensures g.Pass? <==> Present(email) && Present(password)
    ensures g.Reject? ==> g == Reject(400, "Email and password required")
  {
    if !Present(email) || !Present(password) then Reject(400, "Email and password required") else Pass
  }

  /** The guard of `refreshToken`: the refresh token present. */
  function RefreshGuard(refreshToken: Field): (g: Guard)
    ensures g.Pass? <==> Present(refreshToken)
    ensures g.Reject? ==> g == Reject(400, "Refresh token required")
  {
    if !Present(refreshToken) then Reject(400, "Refresh token required") else Pass
  }

  /**
   * An administrator cannot register, a password of exactly eight code units
   * is long enough and one of seven is not.
   */
  lemma RegisterBoundaries(email: string, fullName: string, password: string, short: string)
    requires email != "" && fullName != "" && Utf16Length(password) == MinPasswordLength
    requires Utf16Length(short) == MinPasswordLength - 1
    ensures RegisterGuard(Some(email), Some(password), Some(fullName), Some("admin")) == Reject(400, "Invalid role")
    ensures RegisterGuard(Some(email), Some(password), Some(fullName), Some(DoctorRole)) == Pass
    ensures RegisterGuard(Some(email), Some(short), Some(fullName), Some(DoctorRole)) ==
              Reject(400, "Password must be at least 8 characters")
  {
  }

  /** Four characters outside the Basic Multilingual Plane make eight code units, which is long enough. */
  lemma {:induction false} AstralPasswordIsLongEnough(email: string, fullName: string, c: char)
    requires email != "" && fullName != "" && c as int >= 0x10000
    ensures |[c, c, c, c]| < MinPasswordLength
    ensures RegisterGuard(Some(email), Some([c, c, c, c]), Some(fullName), Some(PatientRole)) == Pass
  {
    Utf16LengthAppend([c, c], [c, c]);
    assert [c, c] + [c, c] == [c, c, c, c];
    Utf16LengthAppend([c], [c]);
    assert [c] + [c] == [c, c];
  }
}

=== FILE: auth_middleware.dfy ===
/**
 * The request middleware: the bearer token is taken from the
 * Authorization header, verified by the token collaborator (a function
 * parameter here), and the role gates admit only doctors or only patients.
 */
module AuthMiddleware {
  import opened Common

  /** `String.prototype.split(' ')`: the pieces between single spaces, empty pieces kept. */
  function Split(s: string): (fields: seq<string>)
    ensures |fields| >= 1
    ensures forall i :: 0 <= i < |fields| ==> ' ' !in fields[i]
  {
    if s == [] then [""]
    else
      var rest := Split(s[1..]);
      if s[0] == ' ' then [""] + rest
      else [[s[0]] + rest[0]] + rest[1..]
  }

  /** `Array.prototype.join(' ')`. */
  function Join(fields: seq<string>): string
    requires |fields| >= 1
  {
    if |fields| == 1 then fields[0] else fields[0] + " " + Join(fields[1..])
  }

  /** Joining the pieces with single spaces gives back the header. */
  lemma {:induction false} JoinSplit(s: string)
    ensures Join(Split(s)) == s
  {
    if s != [] {
      var rest := Split(s[1..]);
      JoinSplit(s[1..]);
      assert s == [s[0]] + s[1..];
      if s[0] != ' ' {
        if |rest| > 1 {
          assert Join(rest) == rest[0] + " " + Join(rest[1..]);
          assert Join(Split(s)) == ([s[0]] + rest[0]) + " " + Join(rest[1..]);
        }
      }
    }
  }

  lemma {:induction false} SplitWithoutSpace(a: string)
    requires ' ' !in a
    ensures Split(a) == [a]
  {
    if a != [] {
      SplitWithoutSpace(a[1..]);
      assert a == [a[0]] + a[1..];
    }
  }

  lemma {:induction false} SplitAtFirstSpace(a: string, b: string)
    requires ' ' !in a
    ensures Split(a + " " + b) == [a] + Split(b)
  {
    if a == [] {
      assert a + " " + b == [' '] + b;
      assert (a + " " + b)[1..] == b;
    } else {
      SplitAtFirstSpace(a[1..], b);
      assert (a + " " + b)[1..] == a[1..] + " " + b;
      assert a == [a[0]] + a[1..];
    }
  }

  /** Splitting a join of space-free pieces gives back the pieces. */
  lemma {:induction false} SplitJoin(fields: seq<string>)
    requires |fields| >= 1
    requires forall i :: 0 <= i < |fields| ==> ' ' !in fields[i]
    ensures Split(Join(fields)) == fields
  {
    if |fields| == 1 {
      SplitWithoutSpace(fields[0]);
    } else {
      SplitJoin(fields[1..]);
      SplitAtFirstSpace(fields[0], Join(fields[1..]));
      assert fields == [fields[0]] + fields[1..];
    }
  }

  /** `authHeader && authHeader.split(' ')[1]`, with undefined and "" both read as no token. */
  function ExtractToken(header: Field): (token: Option<string>)
    ensures token.Some? ==> token.value != "" && ' ' !in token.value
    ensures token.Some? <==> Present(header) && |Split(header.value)| >= 2 && Split(header.value)[1] != ""
  {
    if !Present(header) then None
    else
      var fields := Split(header.value);
      if |fields| < 2 || fields[1] == "" then None else Some(fields[1])
  }

  /** When the header splits into known pieces, the token is the second piece. */
  lemma SecondFieldIsToken(header: string, fields: seq<string>)
    requires Split(header) == fields && |fields| >= 2 && fields[1] != ""
    ensures ExtractToken(Some(header)) == Some(fields[1])
  {
  }

  /** The token is the second field whatever the first word is: the scheme is not checked. */
  lemma {:induction false} TokenIsSecondField(scheme: string, token: string, more: seq<string>)
    requires ' ' !in scheme && ' ' !in token && token != ""
    requires forall i :: 0 <= i < |more| ==> ' ' !in more[i]
    ensures ExtractToken(Some(Join([scheme, token] + more))) == Some(token)
  {
    var fields := [scheme, token] + more;
    forall i | 0 <= i < |fields|
      ensures ' ' !in fields[i]
    {
      if i >= 2 {
        assert fields[i] == more[i - 2];
      }
    }
    SplitJoin(fields);
    SecondFieldIsToken(Join(fields), fields);
  }

  /** A double space leaves the second field empty, so there is no token. */
  lemma DoubleSpaceHasNoToken(scheme: string, token: string)
    requires ' ' !in scheme && ' ' !in token
    ensures ExtractToken(Some(scheme + "  " + token)) == None
  {
    var fields := [scheme, "", token];
    SplitJoin(fields);
    assert Join(fields[2..]) == token;
    assert Join(fields[1..]) == "" + " " + token;
    assert Join(fields) == scheme + "  " + token;
  }

  /** A header without a space has no second field. */
  lemma SingleWordHasNoToken(word: string)
    requires ' ' !in word
    ensures ExtractToken(Some(word)) == None
  {
    SplitWithoutSpace(word);
  }

  datatype AuthOutcome = Proceed(user: Identity) | Deny(status: int, error: string)

  /** The token collaborator: the identity a token decodes to, or None when verification throws. */
  type TokenVerifier = string -> Option<Identity>

  /** `authenticateToken`: 401 without a token, 403 when verification fails, else the decoded identity. */
  function AuthenticateToken(header: Field, verify: TokenVerifier): (o: AuthOutcome)
    ensures ExtractToken(header).None? ==> o == Deny(401, "Access denied. No token provided.")
    ensures ExtractToken(header).Some? && verify(ExtractToken(header).value).None? ==>
              o == Deny(403, "Invalid or expired token")
    ensures o.Proceed? <==> ExtractToken(header).Some? && verify(ExtractToken(header).value).Some?
    ensures o.Proceed? ==> o.user == verify(ExtractToken(header).value).value
  {
    match ExtractToken(header)
    case None => Deny(401, "Access denied. No token provided.")
    case Some(token) =>
      match verify(token)
      case None => Deny(403, "Invalid or expired token")
      case Some(user) => Proceed(user)
  }

  datatype RoleGate = Allow | Forbid(status: int, error: string)

  /** `requireDoctor`. */
  function RequireDoctor(user: Identity): (g: RoleGate)
    ensures g.Allow? <==> user.role == DoctorRole
    ensures g.Forbid? ==> g == Forbid(403, "Access denied. Doctors only.")
  {
    if user.role != DoctorRole then Forbid(403, "Access denied. Doctors only.") else Allow
  }

  /** `requirePatient`. */
  function RequirePatient(user: Identity): (g: RoleGate)
    ensures g.Allow? <==> user.role == PatientRole
    ensures g.Forbid? ==> g == Forbid(403, "Access denied. Patients only.")
  {
    if user.role != PatientRole then Forbid(403, "Access denied. Patients only.") else Allow
  }

  /** No identity passes both gates, and any other role (an administrator's) passes neither. */
  lemma RoleGatesExclusive(user: Identity)
    ensures !(RequireDoctor(user).Allow? && RequirePatient(user).Allow?)
    ensures user.role != DoctorRole && user.role != PatientRole ==>
              RequireDoctor(user).Forbid? && RequirePatient(user).Forbid?
  {
  }
}

=== FILE: common.dfy ===
/** Types shared by every part of the coordinator. */
module Common {

  datatype Option<+T> = None | Some(value: T)

  /** A request or event field as the client sent it: absent, or a string. */
  type Field = Option<string>

  /** JavaScript truthiness of a string field: absent and "" are both falsy. */
  predicate Present(f: Field) {
    f.Some? && f.value != ""
  }

  type UserId = string
  type RoomId = string
  type SocketId = string

  /** The decoded access token attached to a request or a realtime connection. */
  datatype Identity = Identity(userId: UserId, role: string)

  const DoctorRole := "doctor"
  const PatientRole := "patient"
}

=== FILE: room_controller.dfy ===
/**
 * The HTTP room endpoints: early-return validation, then ordered calls
 * into the room service. The request's identity is the one the token
 * middleware attached.
 */
module RoomController {
  import opened Common
  import opened Rooms
  import opened RoomService

  datatype Response<T> = Success(status: int, data: T) | Failure(status: int, error: string)

  /** An early return: the HTTP status and the error text. */
  datatype Rejection = Rejection(status: int, error: string)

  /** What `verifyRoom` returns on success. */
  datatype VerifiedRoom = VerifiedRoom(roomId: RoomId, roomCode: string)

  /** The guards of `createRoom`: the password first, then the role. */
  function CreateRoomGuard(password: Field, role: string): (r: Option<Rejection>)
    ensures r.None? <==> Present(password) && role == DoctorRole
    ensures !Present(password) ==> r == Some(Rejection(400, "Room password required"))
    ensures Present(password) && role != DoctorRole ==> r == Some(Rejection(403, "Only doctors can create rooms"))
  {
    if !Present(password) then Some(Rejection(400, "Room password required"))
    else if role != DoctorRole then Some(Rejection(403, "Only doctors can create rooms"))
    else None
  }

  /**
   * `createRoom`: after the guards, ends the doctor's latest live room (if
   * any) and then inserts the new room. The id, code and password hash are
   * inputs. A failed insert leaves the supersede step in place.
   */
  method CreateRoom(store: RoomStore, user: Identity, password: Field, maxParticipants: Option<int>,
                    newId: RoomId, newCode: string, passwordHash: string, now: int)
    returns (resp: Response<Room>)
    requires store.Valid()
    modifies store
    ensures store.Valid()
    ensures CreateRoomGuard(password, user.role).Some? ==>
              var rejection := CreateRoomGuard(password, user.role).value;
              store.rooms == old(store.rooms) && resp == Failure(rejection.status, rejection.error)
    ensures CreateRoomGuard(password, user.role).None? ==>
              exists latest :: IsLatestLive(old(store.rooms), user.userId, now, latest) &&
                var mid := AfterSupersede(old(store.rooms), latest);
                var room := NewRoom(newId, newCode, user.userId, passwordHash, maxParticipants, now);
                if newId in mid || CodeInUse(mid, newCode) then
                  store.rooms == mid && resp == Failure(500, DuplicateKeyMessage)
                else
                  store.rooms == Insert(mid, room) && resp == Success(201, room)
    ensures resp.Success? && old(|LiveRoomsOf(store.rooms, user.userId, now)| <= 1) ==>
              LiveRoomsOf(store.rooms, user.userId, now) == {resp.data}
  {
    var rejection := CreateRoomGuard(password, user.role);
    if rejection.Some? {
      return Failure(rejection.value.status, rejection.value.error);
    }
    ghost var before := store.rooms;
    var latest := store.GetDoctorActiveRoom(user.userId, now);
    if latest.Some? {
      store.UpdateRoomStatus(latest.value.id, Ended);
    }
    assert store.rooms == AfterSupersede(before, latest);
    var created := store.CreateRoom(newId, newCode, user.userId, passwordHash, maxParticipants, now);
    if created.None? {
      resp := Failure(500, DuplicateKeyMessage);
    } else {
      resp := Success(201, created.value);
      if |LiveRoomsOf(before, user.userId, now)| <= 1 {
        SupersedeLeavesOneLiveRoom(before, user.userId, now, latest, created.value);
      }
    }
  }

  /** `getActiveRooms`. */
  method GetActiveRooms(store: RoomStore, now: int) returns (resp: Response<seq<Room>>)
    requires store.Valid()
    ensures resp.Success? && resp.status == 200 && IsActiveListing(store.rooms, now, resp.data)
  {
    var rooms := store.GetActiveRooms(now);
    resp := Success(200, rooms);
  }

  /**
   * `verifyRoom`: both fields are required; a service refusal is a 401
   * carrying the service's reason; success returns the room's id and code.
   */
  method VerifyRoom(store: RoomStore, roomCode: Field, password: Field, now: int, matches: PasswordCheck)
    returns (resp: Response<VerifiedRoom>)
    requires store.Valid()
    ensures !Present(roomCode) || !Present(password) ==> resp == Failure(400, "Room code and password required")
    ensures Present(roomCode) && Present(password) ==>
              var v := Rooms.VerifyRoomPassword(LookupCode(store.rooms, roomCode.value), password.value, now, matches);
              (v.Rejected? ==> resp == Failure(401, ErrorMessage(v.reason))) &&
              (v.Verified? ==> resp == Success(200, VerifiedRoom(v.roomId, v.roomCode)))
    ensures resp.Success? ==> var found := LookupCode(store.rooms, resp.data.roomCode);
              found.Some? && found.value.id == resp.data.roomId && Joinable(found.value, now)
  {
    if !Present(roomCode) || !Present(password) {
      return Failure(400, "Room code and password required");
    }
    var result := store.VerifyRoomPassword(roomCode.value, password.value, now, matches);
    if result.Rejected? {
      resp := Failure(401, ErrorMessage(result.reason));
    } else {
      resp := Success(200, VerifiedRoom(result.roomId, result.roomCode));
    }
  }

  /** The guards of `endRoom`, given the room looked up by the code: code, existence, ownership. */
  function EndRoomCheck(roomCode: Field, found: Option<Room>, callerId: UserId): (r: Option<Rejection>)
    ensures r.None? <==> Present(roomCode) && found.Some? && found.value.doctorId == callerId
    ensures !Present(roomCode) ==> r == Some(Rejection(400, "Room code required"))
    ensures Present(roomCode) && found.None? ==> r == Some(Rejection(404, "Room not found"))
    ensures Present(roomCode) && found.Some? && found.value.doctorId != callerId ==>
              r == Some(Rejection(403, "Not authorized to end this room"))
  {
    if !Present(roomCode) then Some(Rejection(400, "Room code required"))
    else if found.None? then Some(Rejection(404, "Room not found"))
    else if found.value.doctorId != callerId then Some(Rejection(403, "Not authorized to end this room"))
    else None
  }

  /** `endRoom`: only the room's doctor may end it, whatever its current status. */
  method EndRoom(store: RoomStore, user: Identity, roomCode: Field) returns (resp: Response<string>)
    requires store.Valid()
    modifies store
    ensures store.Valid()
    ensures var found := if Present(roomCode) then LookupCode(old(store.rooms), roomCode.value) else None;
            var rejection := EndRoomCheck(roomCode, found, user.userId);
            && (rejection.Some? ==>
                  store.rooms == old(store.rooms) && resp == Failure(rejection.value.status, rejection.value.error))
            && (rejection.None? ==>
                  store.rooms == WithStatus(old(store.rooms), found.value.id, Ended) &&
                  resp == Success(200, "Room ended successfully"))
  {
    if !Present(roomCode) {
      return Failure(400, "Room code required");
    }
    var found := store.GetRoomByCode(roomCode.value);
    var rejection := EndRoomCheck(roomCode, found, user.userId);
    if rejection.Some? {
      return Failure(rejection.value.status, rejection.value.error);
    }
    store.UpdateRoomStatus(found.value.id, Ended);
    resp := Success(200, "Room ended successfully");
  }

  /** Ending a room leaves it findable, owned by the same doctor and ended, so the owner's repeat call passes the guards again. */
  lemma EndRoomRepeatable(t: Table, code: string, callerId: UserId)
    requires WellFormed(t)
    requires EndRoomCheck(Some(code), LookupCode(t, code), callerId).None?
    ensures var u := WithStatus(t, LookupCode(t, code).value.id, Ended);
            WellFormed(u) &&
            EndRoomCheck(Some(code), LookupCode(u, code), callerId).None? &&
            LookupCode(u, code).value.status == Ended
  {
    var id := LookupCode(t, code).value.id;
    StatusChangeKeepsLookup(t, id, Ended, code);
  }
}

=== FILE: room_service.dfy ===
/**
 * The room service over the `rooms` table. The table is the only state;
 * each write method states the new table as a pure function of the old
 * one (a table function of module Rooms, or `CleanupEffect` for the
 * delayed cleanup), and each read method states what it returns about the
 * current table.
 */
module RoomService {
  import opened Common
  import opened Rooms

  /** Why an INSERT into `rooms` fails: the primary key or the code is taken. */
  const DuplicateKeyMessage := "duplicate key value violates unique constraint"

  class RoomStore {
    var rooms: Table

    ghost predicate Valid()
      reads this
    {
      WellFormed(rooms)
    }

    constructor ()
      ensures Valid() && rooms == map[]
    {
      rooms := map[];
    }

    /**
     * `createRoom`: inserts a waiting room expiring two hours from now. The
     * id, the code and the password hash are produced outside (by the
     * database, by `GenerateRoomCode` and by the hashing collaborator).
     */
    method CreateRoom(id: RoomId, code: string, doctorId: UserId, passwordHash: string,
                      maxParticipants: Option<int>, now: int) returns (created: Option<Room>)
      requires Valid()
      modifies this
      ensures Valid()
      ensures created.None? <==> id in old(rooms) || CodeInUse(old(rooms), code)
      ensures created.None? ==> rooms == old(rooms)
      ensures created.Some? ==> created.value == NewRoom(id, code, doctorId, passwordHash, maxParticipants, now)
      ensures created.Some? ==> rooms == Insert(old(rooms), created.value)
    {
      if id in rooms || CodeInUse(rooms, code) {
        created := None;
      } else {
        var room := NewRoom(id, code, doctorId, passwordHash, maxParticipants, now);
        rooms := Insert(rooms, room);
        created := Some(room);
      }
    }

    /** `getRoomByCode`. */
    method GetRoomByCode(code: string) returns (found: Option<Room>)
      requires Valid()
      ensures found == LookupCode(rooms, code)
    {
      if CodeInUse(rooms, code) {
        var id :| id in rooms && rooms[id].code == code;
        found := Some(rooms[id]);
      } else {
        found := None;
      }
    }

    /** `getRoomById`. */
    method GetRoomById(id: RoomId) returns (found: Option<Room>)
      ensures found == LookupId(rooms, id)
    {
      found := if id in rooms then Some(rooms[id]) else None;
    }

    /**
     * `getActiveRooms`: every waiting or active room that has not reached
     * its expiry, each once, newest first (rooms created at the same instant
     * come in either order).
     */
    method GetActiveRooms(now: int) returns (list: seq<Room>)
      requires Valid()
      ensures IsActiveListing(rooms, now, list)
    {
      var t := rooms;
      var pending := t.Keys;
      ghost var done: set<RoomId> := {};
      list := [];
      ListingStart(t, now);
      while pending != {}
        invariant pending <= t.Keys && done == t.Keys - pending
        invariant ListsAmong(t, done, now, list)
        decreases pending
      {
        var id :| id in pending;
        ListingStep(t, done, id, now, list);
        if IsListed(t[id], now) {
          list := InsertNewestFirst(list, t[id]);
        }
        pending := pending - {id};
        done := done + {id};
      }
      assert done == t.Keys;
      ListingDone(t, now, list);
    }

    /** `verifyRoomPassword`: looks the room up by code and applies the decision chain. */
    method VerifyRoomPassword(code: string, password: string, now: int, matches: PasswordCheck)
      returns (result: VerifyResult)
      requires Valid()
      ensures result == Rooms.VerifyRoomPassword(LookupCode(rooms, code), password, now, matches)
    {
      var found := GetRoomByCode(code);
      result := Rooms.VerifyRoomPassword(found, password, now, matches);
    }

    /** `updateRoomStatus`: no transition guard; an unknown id changes nothing. */
    method UpdateRoomStatus(id: RoomId, status: Status)
      requires Valid()
      modifies this
      ensures Valid()
      ensures rooms == WithStatus(old(rooms), id, status)
    {
      rooms := WithStatus(rooms, id, status);
    }

    /** `deleteRoom`. */
    method DeleteRoom(id: RoomId)
      requires Valid()
      modifies this
      ensures Valid()
      ensures rooms == Delete(old(rooms), id)
    {
      rooms := Delete(rooms, id);
    }

    /** `deleteExpiredRooms`: removes every row the sweep predicate selects and reports how many. */
    method DeleteExpiredRooms(now: int) returns (count: nat)
      requires Valid()
      modifies this
      ensures Valid()
      ensures rooms == Swept(old(rooms), now)
      ensures count == |old(rooms).Keys - rooms.Keys|
    {
      var doomed := set id | id in rooms && SweepDeletes(rooms[id], now);
      ghost var before := rooms;
      rooms := Swept(rooms, now);
      assert doomed == before.Keys - rooms.Keys;
      count := |doomed|;
    }

    /** The callback `scheduleRoomCleanup` arms: ends the room unless it is gone or already ended. */
    method FireRoomCleanup(id: RoomId)
      requires Valid()
      modifies this
      ensures Valid()
      ensures rooms == CleanupEffect(old(rooms), id)
    {
      var found := GetRoomById(id);
      if found.Some? && found.value.status != Ended {
        UpdateRoomStatus(id, Ended);
      }
    }

    /**
     * `getDoctorActiveRoom`: the doctor's most recently created room that
     * is waiting or active and unexpired, if there is one.
     */
    method GetDoctorActiveRoom(doctorId: UserId, now: int) returns (latest: Option<Room>)
      requires Valid()
      ensures IsLatestLive(rooms, doctorId, now, latest)
    {
      var pending := rooms.Keys;
      latest := None;
      while pending != {}
        invariant pending <= rooms.Keys
        invariant latest.Some? ==> latest.value in LiveRoomsOf(rooms, doctorId, now)
        invariant forall id :: id in rooms.Keys - pending && rooms[id].doctorId == doctorId && IsListed(rooms[id], now) ==>
                    latest.Some? && rooms[id].createdAt <= latest.value.createdAt
        decreases pending
      {
        var id :| id in pending;
        var room := rooms[id];
        if room.doctorId == doctorId && IsListed(room, now) && (latest.None? || latest.value.createdAt < room.createdAt) {
          latest := Some(room);
        }
        pending := pending - {id};
      }
    }
  }

  /** The table after the cleanup callback for `id`. */
  function CleanupEffect(t: Table, id: RoomId): (u: Table)
    ensures u.Keys == t.Keys
    ensures forall k :: k in t && k != id ==> u[k] == t[k]
    ensures id in t ==> u[id] == t[id].(status := Ended)
  {
    if id in t && t[id].status != Ended then WithStatus(t, id, Ended) else t
  }

  /** The cleanup callback is idempotent: firing it again changes nothing. */
  lemma CleanupIdempotent(t: Table, id: RoomId)
    ensures CleanupEffect(CleanupEffect(t, id), id) == CleanupEffect(t, id)
    ensures id in t ==> CleanupEffect(t, id)[id].status == Ended
  {
  }
}

=== FILE: rooms.dfy ===
/**
 * The room record of the `rooms` table and the pure rules the room service
 * applies to it: room-code generation, the password-verification decision,
 * the expiry comparisons, the active-room filter, the bulk-sweep predicate,
 * and the table-level effects of the service's writes.
 *
 * Times are milliseconds on one clock; the database's NOW() and the
 * server's Date.now() are the same parameter `now`.
 */
module Rooms {
  import opened Common

  datatype Status = Waiting | Active | Ended

  /** One row of the `rooms` table (the columns the core reads or writes). */
  datatype Room = Room(
    id: RoomId,
    code: string,
    doctorId: UserId,
    passwordHash: string,
    maxParticipants: int,
    status: Status,
    createdAt: int,
    expiresAt: int)

  /** A room lives two hours from creation. */
  const RoomLifetimeMs := 2 * 60 * 60 * 1000
  /** Capacity used when the caller gives none. */
  const DefaultMaxParticipants := 2
  /** The sweep keeps an ended room for two minutes after creation ... */
  const EndedGraceMs := 2 * 60 * 1000
  /** ... and a waiting room for thirty minutes after creation. */
  const WaitingGraceMs := 30 * 60 * 1000

  // ---------------------------------------------------------------------
  // Room codes: four random bytes, hex-encoded, upper-cased.

  newtype byte = x: int | 0 <= x < 256

  predicate IsUpperHexDigit(c: char) {
    '0' <= c <= '9' || 'A' <= c <= 'F'
  }

  /** The format of every generated room code. */
  predicate IsRoomCode(s: string) {
    |s| == 8 && forall i :: 0 <= i < |s| ==> IsUpperHexDigit(s[i])
  }

  function LowerHexDigit(n: int): (c: char)
    requires 0 <= n < 16
    ensures '0' <= c <= '9' || 'a' <= c <= 'f'
  {
    if n < 10 then (48 + n) as char else (87 + n) as char
  }

  /** Node's `Buffer.toString('hex')`: two lower-case digits per byte, high nibble first. */
  function ToHex(bytes: seq<byte>): (s: string)
    ensures |s| == 2 * |bytes|
    ensures forall i :: 0 <= i < |s| ==> '0' <= s[i] <= '9' || 'a' <= s[i] <= 'f'
  {
    if bytes == [] then []
    else [LowerHexDigit(bytes[0] as int / 16), LowerHexDigit(bytes[0] as int % 16)] + ToHex(bytes[1..])
  }

  function UpperChar(c: char): char {
    if 'a' <= c <= 'z' then (c as int - 32) as char else c
  }

  /** `String.prototype.toUpperCase` restricted to ASCII letters. */
  function ToUpperCase(s: string): (u: string)
    ensures |u| == |s| && forall i :: 0 <= i < |s| ==> u[i] == UpperChar(s[i])
  {
    if s == [] then [] else [UpperChar(s[0])] + ToUpperCase(s[1..])
  }

  /** `generateRoomCode`, with the four random bytes as input. */
  function GenerateRoomCode(random: seq<byte>): (code: string)
    requires |random| == 4
    ensures IsRoomCode(code)
  {
    ToUpperCase(ToHex(random))
  }

  function HexValue(c: char): (n: int)
    requires IsUpperHexDigit(c)
    ensures 0 <= n < 16
  {
    if c <= '9' then c as int - 48 else c as int - 55
  }

  /** Reads a code back into the bytes it was made from. */
  function ParseRoomCode(s: string): (bytes: seq<byte>)
    requires |s| % 2 == 0
    requires forall i :: 0 <= i < |s| ==> IsUpperHexDigit(s[i])
    ensures |bytes| == |s| / 2
  {
    if s == [] then []
    else [(16 * HexValue(s[0]) + HexValue(s[1])) as byte] + ParseRoomCode(s[2..])
  }

  /** Each digit, upper-cased, is an upper-case hex digit that reads back as its value. */
  lemma UpperDigitValue(n: int)
    requires 0 <= n < 16
    ensures IsUpperHexDigit(UpperChar(LowerHexDigit(n))) && HexValue(UpperChar(LowerHexDigit(n))) == n
  {
  }

  /** The first byte becomes the first two characters of the upper-cased code. */
  lemma UpperHexHead(bytes: seq<byte>)
    requires bytes != []
    ensures ToUpperCase(ToHex(bytes)) ==
              [UpperChar(LowerHexDigit(bytes[0] as int / 16)), UpperChar(LowerHexDigit(bytes[0] as int % 16))] +
              ToUpperCase(ToHex(bytes[1..]))
  {
    var hi, lo := bytes[0] as int / 16, bytes[0] as int % 16;
    var h, rest := ToHex(bytes), ToHex(bytes[1..]);
    assert h == [LowerHexDigit(hi), LowerHexDigit(lo)] + rest;
    assert h[1..][1..] == rest;
    assert ToUpperCase(h[1..]) == [UpperChar(h[1])] + ToUpperCase(rest);
    assert ToUpperCase(h) == [UpperChar(h[0])] + ToUpperCase(h[1..]);
  }

  /** Parsing reads two digits into one byte and continues with the rest. */
  lemma ParseRoomCodeCons(c1: char, c2: char, rest: string)
    requires IsUpperHexDigit(c1) && IsUpperHexDigit(c2)
    requires |rest| % 2 == 0 && forall i :: 0 <= i < |rest| ==> IsUpperHexDigit(rest[i])
    ensures forall i :: 0 <= i < |[c1, c2] + rest| ==> IsUpperHexDigit(([c1, c2] + rest)[i])
    ensures ParseRoomCode([c1, c2] + rest) == [(16 * HexValue(c1) + HexValue(c2)) as byte] + ParseRoomCode(rest)
  {
    var s := [c1, c2] + rest;
    forall i | 0 <= i < |s|
      ensures IsUpperHexDigit(s[i])
    {
      if i >= 2 {
        assert s[i] == rest[i - 2];
      }
    }
    assert s[2..] == rest;
  }

  lemma {:induction false} UpperHexRoundTrip(bytes: seq<byte>)
    ensures var s := ToUpperCase(ToHex(bytes));
            |s| % 2 == 0 && (forall i :: 0 <= i < |s| ==> IsUpperHexDigit(s[i])) && ParseRoomCode(s) == bytes
  {
    if bytes != [] {
      var rest := ToUpperCase(ToHex(bytes[1..]));
      UpperHexRoundTrip(bytes[1..]);
      UpperHexHead(bytes);
      var hi, lo := bytes[0] as int / 16, bytes[0] as int % 16;
      UpperDigitValue(hi);
      UpperDigitValue(lo);
      ParseRoomCodeCons(UpperChar(LowerHexDigit(hi)), UpperChar(LowerHexDigit(lo)), rest);
      assert 16 * hi + lo == bytes[0] as int;
      assert bytes == [bytes[0]] + bytes[1..];
    }
  }

  /** Decoding a generated code gives back the random bytes. */
  lemma RoomCodeRoundTrip(random: seq<byte>)
    requires |random| == 4
    ensures ParseRoomCode(GenerateRoomCode(random)) == random
  {
    UpperHexRoundTrip(random);
  }

  /** Distinct random bytes give distinct codes. */
  lemma RoomCodeInjective(a: seq<byte>, b: seq<byte>)
    requires |a| == 4 && |b| == 4
    ensures GenerateRoomCode(a) == GenerateRoomCode(b) ==> a == b
  {
    RoomCodeRoundTrip(a);
    RoomCodeRoundTrip(b);
  }

  // ---------------------------------------------------------------------
  // A new room.

  /** The row `createRoom` inserts; status, creation time and id come from the schema defaults. */
  function NewRoom(id: RoomId, code: string, doctorId: UserId, passwordHash: string,
                   maxParticipants: Option<int>, now: int): (r: Room)
    ensures r.id == id && r.code == code && r.doctorId == doctorId && r.passwordHash == passwordHash
    ensures r.status == Waiting && r.createdAt == now && r.expiresAt == now + RoomLifetimeMs
    ensures maxParticipants.None? ==> r.maxParticipants == DefaultMaxParticipants
    ensures maxParticipants.Some? ==> r.maxParticipants == maxParticipants.value
    ensures IsListed(r, now) && !SweepDeletes(r, now)
  {
    var capacity := match maxParticipants
      case None => DefaultMaxParticipants
      case Some(n) => n;
    Room(id, code, doctorId, passwordHash, capacity, Waiting, now, now + RoomLifetimeMs)
  }

  // ---------------------------------------------------------------------
  // Expiry, listing and sweeping.

  /** Expiry as `verifyRoomPassword` judges it: strictly before now. */
  predicate IsExpiredAt(r: Room, now: int) {
    r.expiresAt < now
  }

  /** The filter of `getActiveRooms` and `getDoctorActiveRoom`. */
  predicate IsListed(r: Room, now: int) {
    (r.status == Waiting || r.status == Active) && r.expiresAt > now
  }

  /** The WHERE clause of `deleteExpiredRooms`. */
  predicate SweepDeletes(r: Room, now: int) {
    || r.expiresAt < now
    || (r.status == Ended && r.createdAt < now - EndedGraceMs)
    || (r.status == Waiting && r.createdAt < now - WaitingGraceMs)
  }

  /** The two expiry comparisons disagree at one instant: a room expiring exactly now is neither rejected nor listed. */
  lemma ExpiryBoundary(r: Room, now: int)
    requires r.expiresAt == now
    ensures !IsExpiredAt(r, now) && !IsListed(r, now)
  {
  }

  /** A listed room is never one that verification calls expired. */
  lemma ListedIsUnexpired(r: Room, now: int)
    ensures IsListed(r, now) ==> !IsExpiredAt(r, now) && r.status != Ended
  {
  }

  // ---------------------------------------------------------------------
  // The password-verification decision.

  datatype RoomError = NotFound | HasEnded | HasExpired | InvalidPassword

  function ErrorMessage(e: RoomError): string {
    match e
    case NotFound => "Room not found"
    case HasEnded => "Room has ended"
    case HasExpired => "Room has expired"
    case InvalidPassword => "Invalid password"
  }

  datatype VerifyResult = Verified(roomId: RoomId, roomCode: string) | Rejected(reason: RoomError)

  /** The hashing collaborator: does this plaintext match this stored hash? */
  type PasswordCheck = (string, string) -> bool

  /** Not ended and not expired: the state a password is checked in. */
  predicate Joinable(r: Room, now: int) {
    r.status != Ended && !IsExpiredAt(r, now)
  }

  /**
   * The decision of `verifyRoomPassword` for the row found by code: the
   * checks run in the order not found, ended, expired, password.
   */
  function VerifyRoomPassword(found: Option<Room>, password: string, now: int, matches: PasswordCheck): (v: VerifyResult)
    ensures v.Verified? <==> found.Some? && Joinable(found.value, now) && matches(password, found.value.passwordHash)
    ensures v.Verified? ==> v.roomId == found.value.id && v.roomCode == found.value.code
    ensures v == Rejected(NotFound) <==> found.None?
    ensures v == Rejected(HasEnded) <==> found.Some? && found.value.status == Ended
    ensures v == Rejected(HasExpired) <==> found.Some? && found.value.status != Ended && IsExpiredAt(found.value, now)
    ensures v == Rejected(InvalidPassword) <==> found.Some? && Joinable(found.value, now) && !matches(password, found.value.passwordHash)
  {
    match found
    case None => Rejected(NotFound)
    case Some(room) =>
      if room.status == Ended then Rejected(HasEnded)
      else if IsExpiredAt(room, now) then Rejected(HasExpired)
      else if !matches(password, room.passwordHash) then Rejected(InvalidPassword)
      else Verified(room.id, room.code)
  }

  /** A correct password never opens an ended or expired room, and the answer does not depend on the password. */
  lemma DeadRoomRefusesEveryPassword(room: Room, now: int, p1: string, p2: string, m1: PasswordCheck, m2: PasswordCheck)
    requires !Joinable(room, now)
    ensures VerifyRoomPassword(Some(room), p1, now, m1).Rejected?
    ensures VerifyRoomPassword(Some(room), p1, now, m1) == VerifyRoomPassword(Some(room), p2, now, m2)
  {
  }

  // ---------------------------------------------------------------------
  // The table and the effect of each write on it.

  type Table = map<RoomId, Room>

  /** Every row is stored under its own id (the primary key). */
  predicate KeysMatch(t: Table) {
    forall id :: id in t ==> t[id].id == id
  }

  /** `room_code` is UNIQUE. */
  predicate CodesUnique(t: Table) {
    forall i, j :: i in t && j in t && t[i].code == t[j].code ==> i == j
  }

  predicate WellFormed(t: Table) {
    KeysMatch(t) && CodesUnique(t)
  }

  predicate CodeInUse(t: Table, code: string) {
    exists id :: id in t && t[id].code == code
  }

  /** `getRoomByCode`: the row with this code, if any. */
  ghost function LookupCode(t: Table, code: string): (r: Option<Room>)
    requires WellFormed(t)
    ensures r.Some? <==> CodeInUse(t, code)
    ensures r.Some? ==> r.value.code == code && r.value.id in t && t[r.value.id] == r.value
    ensures forall id :: id in t && t[id].code == code ==> r == Some(t[id])
  {
    if CodeInUse(t, code) then
      var id :| id in t && t[id].code == code; Some(t[id])
    else None
  }

  /** `getRoomById`. */
  function LookupId(t: Table, id: RoomId): (r: Option<Room>)
    ensures r.Some? <==> id in t
    ensures r.Some? ==> r.value == t[id]
  {
    if id in t then Some(t[id]) else None
  }

  /** INSERT of a new row; the caller has checked the keys are free. */
  function Insert(t: Table, r: Room): (u: Table)
    requires r.id !in t
    ensures u.Keys == t.Keys + {r.id}
    ensures forall id :: id in t ==> u[id] == t[id]
    ensures WellFormed(t) && !CodeInUse(t, r.code) ==> WellFormed(u) && LookupCode(u, r.code) == Some(r)
  {
    t[r.id := r]
  }

  /** `updateRoomStatus`: UPDATE ... SET status WHERE id; no row matches an unknown id. */
  function WithStatus(t: Table, id: RoomId, s: Status): (u: Table)
    ensures u.Keys == t.Keys
    ensures forall k :: k in t && k != id ==> u[k] == t[k]
    ensures id in t ==> u[id] == t[id].(status := s)
    ensures WellFormed(t) ==> WellFormed(u)
  {
    if id in t then t[id := t[id].(status := s)] else t
  }

  /** Changing a status keeps every room findable by its code, with the same owner. */
  lemma StatusChangeKeepsLookup(t: Table, id: RoomId, s: Status, code: string)
    requires WellFormed(t)
    ensures WellFormed(WithStatus(t, id, s))
    ensures LookupCode(WithStatus(t, id, s), code).Some? == LookupCode(t, code).Some?
    ensures LookupCode(t, code).Some? ==>
              LookupCode(WithStatus(t, id, s), code).value.id == LookupCode(t, code).value.id &&
              LookupCode(WithStatus(t, id, s), code).value.doctorId == LookupCode(t, code).value.doctorId
  {
    var u := WithStatus(t, id, s);
    if LookupCode(t, code).Some? {
      var k := LookupCode(t, code).value.id;
      assert u[k].code == code;
    }
  }

  /** Setting the same status twice is setting it once. */
  lemma WithStatusIdempotent(t: Table, id: RoomId, s: Status)
    ensures WithStatus(WithStatus(t, id, s), id, s) == WithStatus(t, id, s)
  {
  }

  /** `deleteRoom`. */
  function Delete(t: Table, id: RoomId): (u: Table)
    ensures u.Keys == t.Keys - {id}
    ensures forall k :: k in u ==> u[k] == t[k]
    ensures WellFormed(t) ==> WellFormed(u)
  {
    t - {id}
  }

  /** The rows `deleteExpiredRooms` leaves. */
  function Swept(t: Table, now: int): (u: Table)
    ensures forall id :: id in u <==> id in t && !SweepDeletes(t[id], now)
    ensures forall id :: id in u ==> u[id] == t[id]
    ensures WellFormed(t) ==> WellFormed(u)
  {
    map id | id in t && !SweepDeletes(t[id], now) :: t[id]
  }

  /** The sweep never removes an active room that has not passed its expiry. */
  lemma SweepSparesActiveRooms(t: Table, now: int, id: RoomId)
    requires id in t && t[id].status == Active && t[id].expiresAt >= now
    ensures id in Swept(t, now) && Swept(t, now)[id] == t[id]
  {
  }

  /** Sweeping twice at the same instant is sweeping once. */
  lemma SweepIdempotent(t: Table, now: int)
    ensures Swept(Swept(t, now), now) == Swept(t, now)
  {
    var once := Swept(t, now);
    assert Swept(once, now).Keys == once.Keys;
  }

  /** A row expiring one second ago is swept; an active row expiring in one second is kept. */
  lemma SweepAtTheSecond(t: Table, now: int, past: RoomId, future: RoomId)
    requires past in t && t[past].expiresAt == now - 1000
    requires future in t && t[future].expiresAt == now + 1000 && t[future].status == Active
    ensures past !in Swept(t, now) && future in Swept(t, now)
  {
  }

  /**
   * For a row `createRoom` made, one second before its expiry only an active
   * room survives the sweep: a waiting or ended one is by then far past its
   * grace period.
   */
  lemma SweepBeforeExpiry(id: RoomId, code: string, doctorId: UserId, passwordHash: string,
                          maxParticipants: Option<int>, created: int, s: Status)
    ensures var r := NewRoom(id, code, doctorId, passwordHash, maxParticipants, created).(status := s);
            SweepDeletes(r, created + RoomLifetimeMs - 1000) <==> s != Active
  {
  }

  // ---------------------------------------------------------------------
  // The active-room list.

  /** The rows `getActiveRooms` selects. */
  ghost function ListedRooms(t: Table, now: int): set<Room> {
    set id | id in t && IsListed(t[id], now) :: t[id]
  }

  /** The selected rows among the given ids. */
  ghost function ListedAmong(t: Table, ids: set<RoomId>, now: int): set<Room> {
    set id | id in ids && id in t && IsListed(t[id], now) :: t[id]
  }

  /** Considering one more id adds its row to the selection exactly when the filter admits it. */
  lemma ListedAmongStep(t: Table, ids: set<RoomId>, id: RoomId, now: int)
    requires KeysMatch(t) && id in t && id !in ids
    ensures t[id] !in ListedAmong(t, ids, now)
    ensures IsListed(t[id], now) ==>
              multiset(ListedAmong(t, ids + {id}, now)) == multiset(ListedAmong(t, ids, now)) + multiset{t[id]}
    ensures !IsListed(t[id], now) ==> ListedAmong(t, ids + {id}, now) == ListedAmong(t, ids, now)
  {
    var before, after := ListedAmong(t, ids, now), ListedAmong(t, ids + {id}, now);
    if IsListed(t[id], now) {
      assert after == before + {t[id]};
    } else {
      assert after == before;
    }
  }

  /** `list` lists, newest first, exactly the selected rows among the ids in `done`. */
  ghost predicate ListsAmong(t: Table, done: set<RoomId>, now: int, list: seq<Room>) {
    NewestFirst(list) && multiset(list) == multiset(ListedAmong(t, done, now))
  }

  lemma ListingStart(t: Table, now: int)
    ensures ListsAmong(t, {}, now, [])
  {
    assert ListedAmong(t, {}, now) == {};
  }

  /** One loop step of the listing: the row joins the list exactly when the filter admits it. */
  lemma ListingStep(t: Table, done: set<RoomId>, id: RoomId, now: int, list: seq<Room>)
    requires KeysMatch(t) && id in t && id !in done
    requires ListsAmong(t, done, now, list)
    ensures IsListed(t[id], now) ==> ListsAmong(t, done + {id}, now, InsertNewestFirst(list, t[id]))
    ensures !IsListed(t[id], now) ==> ListsAmong(t, done + {id}, now, list)
  {
    ListedAmongStep(t, done, id, now);
  }

  /** Once every id is considered, the list is an answer of the query. */
  lemma ListingDone(t: Table, now: int, list: seq<Room>)
    requires ListsAmong(t, t.Keys, now, list)
    ensures IsActiveListing(t, now, list)
  {
    assert ListedAmong(t, t.Keys, now) == ListedRooms(t, now);
  }

  /** ORDER BY created_at DESC. */
  predicate NewestFirst(s: seq<Room>) {
    forall i, j :: 0 <= i < j < |s| ==> s[i].createdAt >= s[j].createdAt
  }

  /** `list` is a valid answer of `getActiveRooms` on `t` at `now`: each selected row once, newest first. */
  ghost predicate IsActiveListing(t: Table, now: int, list: seq<Room>) {
    NewestFirst(list) && multiset(list) == multiset(ListedRooms(t, now))
  }

  /** A listing holds exactly the selected rows, as they are stored. */
  lemma ListingMembership(t: Table, now: int, list: seq<Room>)
    requires KeysMatch(t) && IsActiveListing(t, now, list)
    ensures forall r :: r in list <==> r.id in t && t[r.id] == r && IsListed(r, now)
  {
    forall r
      ensures r in list <==> r.id in t && t[r.id] == r && IsListed(r, now)
    {
      assert r in list <==> r in multiset(list);
      assert r in ListedRooms(t, now) <==> r in multiset(ListedRooms(t, now));
    }
  }

  /** A row at least as new as the head goes in front. */
  lemma PrependNewest(r: Room, list: seq<Room>)
    requires NewestFirst(list) && (list == [] || list[0].createdAt <= r.createdAt)
    ensures NewestFirst([r] + list)
  {
    var res := [r] + list;
    forall i, j | 0 <= i < j < |res|
      ensures res[i].createdAt >= res[j].createdAt
    {
      assert res[j] == list[j - 1];
      if i > 0 {
        assert res[i] == list[i - 1];
      } else if j > 1 {
        assert list[0].createdAt >= list[j - 1].createdAt;
      }
    }
  }

  /** A row older than the head goes behind it, into the rest of the list. */
  lemma KeepHead(list: seq<Room>, r: Room, rest: seq<Room>)
    requires NewestFirst(list) && list != [] && r.createdAt < list[0].createdAt
    requires NewestFirst(rest)
    requires multiset(rest) == multiset(list[1..]) + multiset{r}
    requires forall x :: x in rest ==> x in list[1..] || x == r
    ensures NewestFirst([list[0]] + rest)
    ensures multiset([list[0]] + rest) == multiset(list) + multiset{r}
    ensures forall x :: x in [list[0]] + rest ==> x in list || x == r
  {
    var tail := list[1..];
    assert list == [list[0]] + tail;
    forall x | x in tail
      ensures x.createdAt <= list[0].createdAt
    {
      var k :| 0 <= k < |tail| && tail[k] == x;
      assert list[k + 1] == x;
    }
    var res := [list[0]] + rest;
    forall i, j | 0 <= i < j < |res|
      ensures res[i].createdAt >= res[j].createdAt
    {
      assert res[j] == rest[j - 1];
      assert res[j] in rest;
      if i > 0 {
        assert res[i] == rest[i - 1];
      }
    }
  }

  /** Places `r` into a newest-first list. */
  function InsertNewestFirst(list: seq<Room>, r: Room): (res: seq<Room>)
    requires NewestFirst(list)
    ensures NewestFirst(res)
    ensures multiset(res) == multiset(list) + multiset{r}
    ensures forall x :: x in res ==> x in list || x == r
  {
    if list == [] || list[0].createdAt <= r.createdAt then
      PrependNewest(r, list);
      [r] + list
    else
      var rest := InsertNewestFirst(list[1..], r);
      KeepHead(list, r, rest);
      [list[0]] + rest
  }

  // ---------------------------------------------------------------------
  // One live room per doctor.

  /** The doctor's rooms that `getDoctorActiveRoom` would consider. */
  ghost function LiveRoomsOf(t: Table, doctorId: UserId, now: int): set<Room> {
    set id | id in t && t[id].doctorId == doctorId && IsListed(t[id], now) :: t[id]
  }

  /** `latest` is an answer of `getDoctorActiveRoom`: none when the doctor has no live room, else a newest one. */
  ghost predicate IsLatestLive(t: Table, doctorId: UserId, now: int, latest: Option<Room>) {
    && (latest.None? <==> LiveRoomsOf(t, doctorId, now) == {})
    && (latest.Some? ==> latest.value in LiveRoomsOf(t, doctorId, now))
    && (latest.Some? ==> forall r :: r in LiveRoomsOf(t, doctorId, now) ==> r.createdAt <= latest.value.createdAt)
  }

  /** The table after the supersede step: the doctor's latest live room, if any, is ended. */
  function AfterSupersede(t: Table, latest: Option<Room>): (u: Table)
    ensures u.Keys == t.Keys
    ensures latest.Some? && latest.value.id in t ==> u[latest.value.id] == t[latest.value.id].(status := Ended)
    ensures forall k :: k in t && !(latest.Some? && k == latest.value.id) ==> u[k] == t[k]
    ensures WellFormed(t) ==> WellFormed(u)
  {
    if latest.Some? then WithStatus(t, latest.value.id, Ended) else t
  }

  lemma SingletonFromBound(s: set<Room>, e: Room)
    requires |s| <= 1 && e in s
    ensures s == {e}
  {
    assert |s - {e}| == |s| - 1;
    assert s == (s - {e}) + {e};
  }

  /**
   * Supersede-then-create: if the doctor had at most one live room and it
   * is ended before the new room is inserted, the new room is the doctor's
   * only live room.
   */
  lemma SupersedeLeavesOneLiveRoom(t: Table, doctorId: UserId, now: int, existing: Option<Room>, created: Room)
    requires WellFormed(t) && |LiveRoomsOf(t, doctorId, now)| <= 1
    requires IsLatestLive(t, doctorId, now, existing)
    requires created.doctorId == doctorId && IsListed(created, now)
    requires created.id !in t
    ensures LiveRoomsOf(Insert(AfterSupersede(t, existing), created), doctorId, now) == {created}
  {
    var ended := AfterSupersede(t, existing);
    if existing.Some? {
      SingletonFromBound(LiveRoomsOf(t, doctorId, now), existing.value);
    }
    assert LiveRoomsOf(ended, doctorId, now) == {} by {
      forall id | id in ended && ended[id].doctorId == doctorId
        ensures !IsListed(ended[id], now)
      {
        if IsListed(t[id], now) {
          assert t[id] in LiveRoomsOf(t, doctorId, now);
        }
      }
    }
    var u := Insert(ended, created);
    assert created in LiveRoomsOf(u, doctorId, now) by {
      assert u[created.id] == created;
    }
  }

  /**
   * The supersede step ends only the latest live room: a doctor who already
   * had two live rooms (for instance from the realtime create path, which
   * does not supersede) keeps the older one live next to the new room.
   */
  lemma SupersedeEndsOnlyTheLatest(t: Table, doctorId: UserId, now: int, older: Room, latest: Room, created: Room)
    requires WellFormed(t)
    requires older.id in t && t[older.id] == older && latest.id in t && t[latest.id] == latest
    requires older.id != latest.id
    requires IsLatestLive(t, doctorId, now, Some(latest))
    requires older.doctorId == doctorId && IsListed(older, now)
    requires created.id !in t && created.doctorId == doctorId && IsListed(created, now)
    ensures older != created
    ensures {older, created} <= LiveRoomsOf(Insert(AfterSupersede(t, Some(latest)), created), doctorId, now)
    ensures latest !in LiveRoomsOf(Insert(AfterSupersede(t, Some(latest)), created), doctorId, now)
  {
    var u := Insert(AfterSupersede(t, Some(latest)), created);
    assert u[older.id] == older && u[created.id] == created;
    assert u[latest.id] == latest.(status := Ended);
    forall k | k in u && u[k].doctorId == doctorId && IsListed(u[k], now)
      ensures u[k] != latest
    {
      assert u[k].id == k;
    }
  }

  /** Without the supersede step, inserting a second room leaves the doctor with two live rooms. */
  lemma InsertWithoutSupersede(t: Table, doctorId: UserId, now: int, earlier: Room, created: Room)
    requires earlier.id in t && t[earlier.id] == earlier && earlier.doctorId == doctorId && IsListed(earlier, now)
    requires created.id !in t && created.doctorId == doctorId && IsListed(created, now)
    ensures earlier != created
    ensures {earlier, created} <= LiveRoomsOf(Insert(t, created), doctorId, now)
  {
    var u := Insert(t, created);
    assert u[earlier.id] == earlier && u[created.id] == created;
  }
}

=== FILE: signaling.dfy ===
/**
 * The realtime signaling coordinator: the registry of live connections
 * per room code, each socket's room binding, and one method per inbound
 * event. Events run one at a time, each to completion. Timers become
 * explicit methods that the caller fires with the time of firing, and
 * deliveries are returned as values naming their recipients.
 */
module Signaling {
  import opened Common
  import opened Rooms
  import opened RoomService

  /** The check a disconnect arms ends the room if it then finds more than two minutes of silence. */
  const InactivityTimeoutMs := 2 * 60 * 1000
  /** The capacity the realtime path always asks for. */
  const SocketRoomCapacity := 2
  /** The password value that skips verification on join. */
  const AlreadyVerified := "already-verified"

  /** A registry entry: who occupies the room now, and when it last saw signaling. */
  datatype Connection = Connection(doctor: SocketId, patient: Option<SocketId>, lastActivity: int, roomId: RoomId)

  type Registry = map<string, Connection>

  /** The transport's room membership (the sockets that joined each room name). */
  type Membership = map<string, set<SocketId>>

  /** An offer, an answer or a candidate, carried unread. */
  type Payload = string

  datatype Event =
    | RoomsUpdated(rooms: seq<Room>)
    | ParticipantJoined(peerId: SocketId, userId: UserId)
    | ParticipantLeft(peerId: SocketId)
    | OfferRelay(offer: Payload, senderId: SocketId)
    | AnswerRelay(answer: Payload, senderId: SocketId)
    | IceCandidateRelay(candidate: Payload, senderId: SocketId)
    | CallEnded
    | RoomTimeout

  datatype Audience = Everyone | Sockets(ids: set<SocketId>)

  /** One outbound message and who receives it. */
  datatype Emit = Emit(to: Audience, event: Event)

  /** The inactivity check a disconnect arms: which room to re-check, and when it fires. */
  datatype ArmedCheck = ArmedCheck(code: string, fireAt: int)

  datatype CreateAck = Created(room: Room) | CreateFailed(error: string)
  datatype JoinAck = Joined(roomId: string) | JoinFailed(error: string)

  // ---------------------------------------------------------------------
  // The registry and its updates.

  /** `updateActivity`: refreshes the entry of that code only; a missing entry is left missing. */
  function Touch(reg: Registry, code: string, now: int): (r: Registry)
    ensures r.Keys == reg.Keys
    ensures forall c :: c in reg && c != code ==> r[c] == reg[c]
    ensures code in reg ==> r[code] == reg[code].(lastActivity := now)
  {
    if code in reg then reg[code := reg[code].(lastActivity := now)] else reg
  }

  /** A successful join: the patient slot is overwritten and activity refreshed, for an existing entry only. */
  function SetPatient(reg: Registry, code: string, patient: SocketId, now: int): (r: Registry)
    ensures r.Keys == reg.Keys
    ensures forall c :: c in reg && c != code ==> r[c] == reg[c]
    ensures code in reg ==> r[code] == reg[code].(patient := Some(patient), lastActivity := now)
  {
    if code in reg then reg[code := reg[code].(patient := Some(patient), lastActivity := now)] else reg
  }

  /** What the timeout re-checks when it fires. */
  predicate Stale(reg: Registry, code: string, now: int) {
    code in reg && now - reg[code].lastActivity > InactivityTimeoutMs
  }

  /** Each change a handler makes to the registry. */
  datatype RegistryStep =
    | Register(code: string, entry: Connection)
    | Activity(code: string, at: int)
    | PatientJoin(code: string, patient: SocketId, at: int)
    | Unregister(code: string)

  function ApplyStep(reg: Registry, step: RegistryStep): Registry {
    match step
    case Register(code, entry) => reg[code := entry]
    case Activity(code, at) => Touch(reg, code, at)
    case PatientJoin(code, patient, at) => SetPatient(reg, code, patient, at)
    case Unregister(code) => reg - {code}
  }

  /** The registry after a run of handler steps. */
  function Replay(reg: Registry, steps: seq<RegistryStep>): Registry
    decreases |steps|
  {
    if steps == [] then reg else Replay(ApplyStep(reg, steps[0]), steps[1..])
  }

  /** The step happens no earlier than `t` (the clock does not run backwards). */
  predicate NotBefore(step: RegistryStep, t: int) {
    match step
    case Register(_, entry) => entry.lastActivity >= t
    case Activity(_, at) => at >= t
    case PatientJoin(_, _, at) => at >= t
    case Unregister(_) => true
  }

  /** Activity at `t` is never forgotten: while the entry exists, its last activity stays at or after `t`. */
  lemma {:induction false} ActivityFloor(reg: Registry, steps: seq<RegistryStep>, code: string, t: int)
    requires code in reg ==> reg[code].lastActivity >= t
    requires forall i :: 0 <= i < |steps| ==> NotBefore(steps[i], t)
    ensures code in Replay(reg, steps) ==> Replay(reg, steps)[code].lastActivity >= t
    decreases |steps|
  {
    if steps != [] {
      var next := ApplyStep(reg, steps[0]);
      assert NotBefore(steps[0], t);
      assert code in next ==> next[code].lastActivity >= t;
      assert forall i :: 0 <= i < |steps[1..]| ==> NotBefore(steps[1..][i], t) by {
        forall i | 0 <= i < |steps[1..]| ensures NotBefore(steps[1..][i], t) {
          assert steps[1..][i] == steps[i + 1];
        }
      }
      ActivityFloor(next, steps[1..], code, t);
    }
  }

  /**
   * Activity within the window cancels an armed check: once the entry has
   * seen activity at `t`, a check firing no later than two minutes after
   * `t` finds it fresh and does nothing, whatever other events ran in
   * between. The check is not armed again, so the room is not ended later
   * by it either.
   */
  lemma ActivityCancelsCheck(reg: Registry, steps: seq<RegistryStep>, code: string, t: int, fireAt: int)
    requires code in reg ==> reg[code].lastActivity >= t
    requires forall i :: 0 <= i < |steps| ==> NotBefore(steps[i], t)
    requires fireAt - t <= InactivityTimeoutMs
    ensures !Stale(Replay(reg, steps), code, fireAt)
  {
    ActivityFloor(reg, steps, code, t);
  }

  /** Steps for other room codes never touch this code's entry. */
  lemma {:induction false} OtherRoomsLeaveEntry(reg: Registry, steps: seq<RegistryStep>, code: string)
    requires forall i :: 0 <= i < |steps| ==> steps[i].code != code
    ensures code in Replay(reg, steps) <==> code in reg
    ensures code in reg ==> Replay(reg, steps)[code] == reg[code]
    decreases |steps|
  {
    if steps != [] {
      assert steps[0].code != code;
      assert forall i :: 0 <= i < |steps[1..]| ==> steps[1..][i].code != code by {
        forall i | 0 <= i < |steps[1..]| ensures steps[1..][i].code != code {
          assert steps[1..][i] == steps[i + 1];
        }
      }
      OtherRoomsLeaveEntry(ApplyStep(reg, steps[0]), steps[1..], code);
    }
  }

  /** Silence for the full window makes the check find the entry stale, whatever happens to other rooms. */
  lemma SilenceKeepsStale(reg: Registry, steps: seq<RegistryStep>, code: string, fireAt: int)
    requires Stale(reg, code, fireAt)
    requires forall i :: 0 <= i < |steps| ==> steps[i].code != code
    ensures Stale(Replay(reg, steps), code, fireAt)
  {
    OtherRoomsLeaveEntry(reg, steps, code);
  }

  // ---------------------------------------------------------------------
  // Transport membership and fan-out.

  function MembersOf(m: Membership, code: string): set<SocketId> {
    if code in m then m[code] else {}
  }

  /** `socket.join(code)`. */
  function Enter(m: Membership, code: string, sid: SocketId): (r: Membership)
    ensures MembersOf(r, code) == MembersOf(m, code) + {sid}
    ensures forall c :: c != code ==> MembersOf(r, c) == MembersOf(m, c)
  {
    m[code := MembersOf(m, code) + {sid}]
  }

  /** The transport removes a disconnected socket from every room. */
  function LeaveAll(m: Membership, sid: SocketId): (r: Membership)
    ensures forall c :: MembersOf(r, c) == MembersOf(m, c) - {sid}
  {
    map c | c in m :: m[c] - {sid}
  }

  /** `socket.to(code)`: every member of the room except the sender. */
  function OthersIn(m: Membership, code: string, sender: SocketId): (peers: set<SocketId>)
    ensures sender !in peers
    ensures forall s :: s in peers <==> s in MembersOf(m, code) && s != sender
  {
    MembersOf(m, code) - {sender}
  }

  /** In a room holding exactly a doctor and a patient, each one's relay reaches exactly the other. */
  lemma RelayIsPointToPoint(m: Membership, code: string, doctor: SocketId, patient: SocketId)
    requires doctor != patient && MembersOf(m, code) == {doctor, patient}
    ensures OthersIn(m, code, doctor) == {patient}
    ensures OthersIn(m, code, patient) == {doctor}
  {
  }

  // ---------------------------------------------------------------------
  // The join decision.

  /**
   * Whether join-room admits the socket. With the bypass value only the
   * room's existence is checked; otherwise the full verification applies.
   */
  function JoinDecision(found: Option<Room>, password: string, now: int, matches: PasswordCheck): (d: VerifyResult)
    ensures password == AlreadyVerified ==> (d.Verified? <==> found.Some?)
    ensures password != AlreadyVerified ==> d == Rooms.VerifyRoomPassword(found, password, now, matches)
    ensures d.Verified? ==> found.Some? && d.roomId == found.value.id
    ensures d.Rejected? && found.None? ==> d.reason == NotFound
  {
    if password == AlreadyVerified then
      match found
      case None => Rejected(NotFound)
      case Some(room) => Verified(room.id, room.code)
    else Rooms.VerifyRoomPassword(found, password, now, matches)
  }

  /**
   * The bypass admits an ended or expired room and the join then marks it
   * active again, while the same room refuses every real password.
   */
  lemma BypassReopensDeadRoom(t: Table, room: Room, now: int, password: string, matches: PasswordCheck)
    requires WellFormed(t) && room.id in t && t[room.id] == room && !Joinable(room, now)
    requires password != AlreadyVerified
    ensures JoinDecision(LookupCode(t, room.code), AlreadyVerified, now, matches).Verified?
    ensures WithStatus(t, room.id, Active)[room.id].status == Active
    ensures JoinDecision(LookupCode(t, room.code), password, now, matches).Rejected?
  {
    assert LookupCode(t, room.code) == Some(room);
  }

  // ---------------------------------------------------------------------
  // Sockets and the hub.

  /** A realtime connection: its id, the identity admitted at handshake, and the room it is bound to. */
  class Socket {
    const id: SocketId
    const user: Identity
    var roomCode: Field

    constructor (id: SocketId, user: Identity)
      ensures this.id == id && this.user == user && roomCode == None
    {
      this.id := id;
      this.user := user;
      roomCode := None;
    }
  }

  class SignalingHub {
    const store: RoomStore
    var connections: Registry
    var members: Membership

    ghost predicate Valid()
      reads this, store
    {
      store.Valid()
    }

    constructor (store: RoomStore)
      requires store.Valid()
      ensures Valid() && this.store == store && connections == map[] && members == map[]
    {
      this.store := store;
      connections := map[];
      members := map[];
    }

    /** The `rooms-updated` broadcast after a change. */
    method BroadcastRooms(now: int) returns (sent: Emit)
      requires Valid()
      ensures sent.to == Everyone && sent.event.RoomsUpdated?
      ensures IsActiveListing(store.rooms, now, sent.event.rooms)
    {
      var rooms := store.GetActiveRooms(now);
      sent := Emit(Everyone, RoomsUpdated(rooms));
    }

    /**
     * create-room: always capacity 2, the client's code ignored. The new
     * entry has the creator as doctor, no patient, activity now, and the
     * new room's id. No role check and no supersede step on this path.
     */
    method CreateRoom(socket: Socket, requestedCode: string, newId: RoomId, newCode: string,
                      passwordHash: string, now: int)
      returns (ack: CreateAck, sent: seq<Emit>)
      requires Valid()
      modifies this, store, socket
      ensures Valid()
      ensures newId in old(store.rooms) || CodeInUse(old(store.rooms), newCode) ==>
                ack == CreateFailed(DuplicateKeyMessage) && sent == [] &&
                store.rooms == old(store.rooms) && connections == old(connections) &&
                members == old(members) && socket.roomCode == old(socket.roomCode)
      ensures !(newId in old(store.rooms) || CodeInUse(old(store.rooms), newCode)) ==>
                var room := NewRoom(newId, newCode, socket.user.userId, passwordHash, Some(SocketRoomCapacity), now);
                && ack == Created(room)
                && store.rooms == Insert(old(store.rooms), room)
                && socket.roomCode == Some(newCode)
                && members == Enter(old(members), newCode, socket.id)
                && connections == ApplyStep(old(connections), Register(newCode, Connection(socket.id, None, now, newId)))
                && |sent| == 1 && sent[0].to == Everyone && sent[0].event.RoomsUpdated?
                && IsActiveListing(store.rooms, now, sent[0].event.rooms)
    {
      var created := store.CreateRoom(newId, newCode, socket.user.userId, passwordHash, Some(SocketRoomCapacity), now);
      if created.None? {
        return CreateFailed(DuplicateKeyMessage), [];
      }
      var room := created.value;
      members := Enter(members, room.code, socket.id);
      socket.roomCode := Some(room.code);
      connections := connections[room.code := Connection(socket.id, None, now, room.id)];
      ack := Created(room);
      var update := BroadcastRooms(now);
      sent := [update];
    }

    /** get-rooms. */
    method GetRooms(now: int) returns (rooms: seq<Room>)
      requires Valid()
      ensures IsActiveListing(store.rooms, now, rooms)
    {
      rooms := store.GetActiveRooms(now);
    }

    /**
     * join-room. A refusal changes nothing. Success binds the socket,
     * fills the patient slot of an existing entry (never creating one),
     * marks the room active and tells the room's other members.
     */
    method JoinRoom(socket: Socket, roomCode: string, password: string, now: int, matches: PasswordCheck)
      returns (ack: JoinAck, sent: seq<Emit>)
      requires Valid()
      modifies this, store, socket
      ensures Valid()
      ensures var d := JoinDecision(LookupCode(old(store.rooms), roomCode), password, now, matches);
              d.Rejected? ==>
                ack == JoinFailed(ErrorMessage(d.reason)) && sent == [] &&
                store.rooms == old(store.rooms) && connections == old(connections) &&
                members == old(members) && socket.roomCode == old(socket.roomCode)
      ensures var d := JoinDecision(LookupCode(old(store.rooms), roomCode), password, now, matches);
              d.Verified? ==>
                && ack == Joined(roomCode)
                && socket.roomCode == Some(roomCode)
                && members == Enter(old(members), roomCode, socket.id)
                && connections == ApplyStep(old(connections), PatientJoin(roomCode, socket.id, now))
                && store.rooms == WithStatus(old(store.rooms), d.roomId, Active)
                && sent == [Emit(Sockets(OthersIn(members, roomCode, socket.id)),
                                 ParticipantJoined(socket.id, socket.user.userId))]
    {
      var found := store.GetRoomByCode(roomCode);
      var decision := JoinDecision(found, password, now, matches);
      if decision.Rejected? {
        return JoinFailed(ErrorMessage(decision.reason)), [];
      }
      members := Enter(members, roomCode, socket.id);
      socket.roomCode := Some(roomCode);
      connections := SetPatient(connections, roomCode, socket.id, now);
      store.UpdateRoomStatus(decision.roomId, Active);
      sent := [Emit(Sockets(OthersIn(members, roomCode, socket.id)),
                    ParticipantJoined(socket.id, socket.user.userId))];
      ack := Joined(socket.roomCode.value);
    }

    /** `updateActivity`. */
    method UpdateActivity(roomCode: string, now: int)
      modifies this`connections
      ensures connections == ApplyStep(old(connections), Activity(roomCode, now))
    {
      connections := Touch(connections, roomCode, now);
    }

    /** offer: refresh that room's activity, forward the payload unchanged to the room's other members. */
    method Offer(socket: Socket, roomCode: string, offer: Payload, now: int) returns (sent: Emit)
      modifies this`connections
      ensures connections == ApplyStep(old(connections), Activity(roomCode, now))
      ensures sent == Emit(Sockets(OthersIn(members, roomCode, socket.id)), OfferRelay(offer, socket.id))
    {
      UpdateActivity(roomCode, now);
      sent := Emit(Sockets(OthersIn(members, roomCode, socket.id)), OfferRelay(offer, socket.id));
    }

    /** answer: as offer. */
    method Answer(socket: Socket, roomCode: string, answer: Payload, now: int) returns (sent: Emit)
      modifies this`connections
      ensures connections == ApplyStep(old(connections), Activity(roomCode, now))
      ensures sent == Emit(Sockets(OthersIn(members, roomCode, socket.id)), AnswerRelay(answer, socket.id))
    {
      UpdateActivity(roomCode, now);
      sent := Emit(Sockets(OthersIn(members, roomCode, socket.id)), AnswerRelay(answer, socket.id));
    }

    /** ice-candidate: as offer. */
    method IceCandidate(socket: Socket, roomCode: string, candidate: Payload, now: int) returns (sent: Emit)
      modifies this`connections
      ensures connections == ApplyStep(old(connections), Activity(roomCode, now))
      ensures sent == Emit(Sockets(OthersIn(members, roomCode, socket.id)), IceCandidateRelay(candidate, socket.id))
    {
      UpdateActivity(roomCode, now);
      sent := Emit(Sockets(OthersIn(members, roomCode, socket.id)), IceCandidateRelay(candidate, socket.id));
    }

    /**
     * end-call: nothing for a socket without a (non-empty) room code; otherwise the room (if it
     * still exists) is ended, the others are told, and the entry is removed.
     * The socket stays bound.
     */
    method EndCall(socket: Socket, now: int) returns (sent: seq<Emit>)
      requires Valid()
      modifies this, store
      ensures Valid()
      ensures !Present(socket.roomCode) ==>
                sent == [] && store.rooms == old(store.rooms) &&
                connections == old(connections) && members == old(members)
      ensures Present(socket.roomCode) ==>
                var code := socket.roomCode.value;
                var found := LookupCode(old(store.rooms), code);
                && store.rooms == (if found.Some? then WithStatus(old(store.rooms), found.value.id, Ended) else old(store.rooms))
                && connections == ApplyStep(old(connections), Unregister(code))
                && members == old(members)
                && |sent| == 2
                && sent[0] == Emit(Sockets(OthersIn(members, code, socket.id)), CallEnded)
                && sent[1].to == Everyone && sent[1].event.RoomsUpdated?
                && IsActiveListing(store.rooms, now, sent[1].event.rooms)
    {
      if !Present(socket.roomCode) {
        return [];
      }
      var code := socket.roomCode.value;
      var found := store.GetRoomByCode(code);
      if found.Some? {
        store.UpdateRoomStatus(found.value.id, Ended);
      }
      var ended := Emit(Sockets(OthersIn(members, code, socket.id)), CallEnded);
      connections := connections - {code};
      var update := BroadcastRooms(now);
      sent := [ended, update];
    }

    /**
     * disconnect at `now`: the transport drops the socket from every room;
     * a bound socket's peers are told, and one inactivity check is armed,
     * due two minutes later, only when the room has an entry. The entry is
     * kept. The check fires once and is never armed again.
     */
    method Disconnect(socket: Socket, now: int) returns (sent: seq<Emit>, timer: Option<ArmedCheck>)
      modifies this`members
      ensures members == LeaveAll(old(members), socket.id)
      ensures !Present(socket.roomCode) ==> sent == [] && timer == None
      ensures Present(socket.roomCode) ==>
                var code := socket.roomCode.value;
                && sent == [Emit(Sockets(OthersIn(old(members), code, socket.id)), ParticipantLeft(socket.id))]
                && (timer.Some? <==> code in connections)
                && (timer.Some? ==> timer.value == ArmedCheck(code, now + InactivityTimeoutMs))
    {
      sent, timer := [], None;
      if Present(socket.roomCode) {
        var code := socket.roomCode.value;
        sent := [Emit(Sockets(OthersIn(members, code, socket.id)), ParticipantLeft(socket.id))];
        if code in connections {
          timer := Some(ArmedCheck(code, now + InactivityTimeoutMs));
        }
      }
      members := LeaveAll(members, socket.id);
    }

    /**
     * The armed check firing at `now`: it re-reads the entry, and only if
     * the entry still exists and has been silent for more than two minutes
     * and the room still exists does it end the room, tell the room, and
     * remove the entry.
     */
    method FireTimeout(code: string, now: int) returns (sent: seq<Emit>)
      requires Valid()
      modifies this, store
      ensures Valid()
      ensures members == old(members)
      ensures !(Stale(old(connections), code, now) && LookupCode(old(store.rooms), code).Some?) ==>
                sent == [] && store.rooms == old(store.rooms) && connections == old(connections)
      ensures Stale(old(connections), code, now) && LookupCode(old(store.rooms), code).Some? ==>
                && store.rooms == WithStatus(old(store.rooms), LookupCode(old(store.rooms), code).value.id, Ended)
                && connections == ApplyStep(old(connections), Unregister(code))
                && !Stale(connections, code, now)
                && |sent| == 2
                && sent[0] == Emit(Sockets(MembersOf(members, code)), RoomTimeout)
                && sent[1].to == Everyone && sent[1].event.RoomsUpdated?
                && IsActiveListing(store.rooms, now, sent[1].event.rooms)
    {
      sent := [];
      if code in connections && now - connections[code].lastActivity > InactivityTimeoutMs {
        var found := store.GetRoomByCode(code);
        if found.Some? {
          store.UpdateRoomStatus(found.value.id, Ended);
          var timeout := Emit(Sockets(MembersOf(members, code)), RoomTimeout);
          connections := connections - {code};
          var update := BroadcastRooms(now);
          sent := [timeout, update];
        }
      }
    }

    /** The ten-minute interval: the bulk sweep of the rooms table. The registry is not reconciled. */
    method SweepTick(now: int) returns (count: nat)
      requires Valid()
      modifies store
      ensures Valid()
      ensures store.rooms == Swept(old(store.rooms), now)
      ensures count == |old(store.rooms).Keys - store.rooms.Keys|
    {
      count := store.DeleteExpiredRooms(now);
    }
  }
}

=== FILE: walkthrough.dfy ===
/**
 * One consultation driven through the realtime handlers: a doctor opens a
 * room, a patient is refused with a wrong password and admitted with the
 * right one, the doctor's offer reaches the patient only, the patient
 * drops, and the one inactivity check that drop arms fires two minutes
 * later: it ends the room unless the drop came in the same millisecond as
 * the last activity, in which case it finds the entry fresh and nothing
 * ever re-checks it.
 * Each phase states the concrete hub it leaves behind.
 */
module Walkthrough {
  import opened Common
  import opened Rooms
  import opened RoomService
  import opened Signaling

  const Code := "ABCD1234"
  const DoctorSocket := "sock-d"
  const PatientSocket := "sock-p"
  const Doctor := Identity("D", DoctorRole)
  const Patient := Identity("P", PatientRole)
  const Opened := 1000

  /** A stand-in for the hashing collaborator: the stored hash is the password with a prefix. */
  function PrefixMatches(password: string, hash: string): bool {
    hash == "h:" + password
  }

  function OpenedRoom(): Room {
    NewRoom("room-1", Code, Doctor.userId, "h:secret123", Some(SocketRoomCapacity), Opened)
  }

  /** The doctor's socket creates the room. */
  method Open() returns (hub: SignalingHub, doctor: Socket, patient: Socket)
    ensures fresh(hub) && fresh(hub.store) && fresh(doctor) && fresh(patient)
    ensures hub.Valid() && hub.store.rooms == map["room-1" := OpenedRoom()]
    ensures hub.connections == map[Code := Connection(DoctorSocket, None, Opened, "room-1")]
    ensures hub.members == map[Code := {DoctorSocket}]
    ensures doctor.id == DoctorSocket && doctor.user == Doctor
    ensures patient.id == PatientSocket && patient.user == Patient && patient.roomCode == None
  {
    var store := new RoomStore();
    hub := new SignalingHub(store);
    doctor := new Socket(DoctorSocket, Doctor);
    patient := new Socket(PatientSocket, Patient);
    var _, _ := hub.CreateRoom(doctor, "", "room-1", Code, "h:secret123", Opened);
    assert MembersOf(map[], Code) + {DoctorSocket} == {DoctorSocket};
    assert hub.members == Enter(map[], Code, DoctorSocket);
  }

  /** A wrong password is refused and changes nothing. */
  method Refuse(hub: SignalingHub, patient: Socket) returns (refused: JoinAck)
    requires hub.Valid() && hub.store.rooms == map["room-1" := OpenedRoom()]
    modifies hub, hub.store, patient
    ensures refused == JoinFailed("Invalid password")
    ensures hub.Valid() && hub.store.rooms == old(hub.store.rooms)
    ensures hub.connections == old(hub.connections) && hub.members == old(hub.members)
    ensures patient.roomCode == old(patient.roomCode)
  {
    assert LookupCode(hub.store.rooms, Code) == Some(OpenedRoom()) by {
      assert hub.store.rooms["room-1"].code == Code;
    }
    assert !PrefixMatches("wrong", "h:secret123") by {
      assert ("h:" + "wrong")[2] == 'w';
    }
    var sent;
    refused, sent := hub.JoinRoom(patient, Code, "wrong", Opened + 1, PrefixMatches);
  }

  /** What admission does to the opened room's table and registry. */
  lemma AdmissionEffects(t: Table, reg: Registry)
    requires t == map["room-1" := OpenedRoom()]
    requires reg == map[Code := Connection(DoctorSocket, None, Opened, "room-1")]
    ensures WellFormed(t)
    ensures JoinDecision(LookupCode(t, Code), "secret123", Opened + 2, PrefixMatches) == Verified("room-1", Code)
    ensures WithStatus(t, "room-1", Active) == map["room-1" := OpenedRoom().(status := Active)]
    ensures ApplyStep(reg, PatientJoin(Code, PatientSocket, Opened + 2)) ==
              map[Code := Connection(DoctorSocket, Some(PatientSocket), Opened + 2, "room-1")]
  {
    assert LookupCode(t, Code) == Some(OpenedRoom()) by {
      assert t["room-1"].code == Code;
    }
  }

  /** The right password admits the patient, activates the room and tells the doctor. */
  method Admit(hub: SignalingHub, patient: Socket) returns (admitted: JoinAck, joinNotice: seq<Emit>)
    requires hub.Valid() && hub.store.rooms == map["room-1" := OpenedRoom()]
    requires hub.connections == map[Code := Connection(DoctorSocket, None, Opened, "room-1")]
    requires hub.members == map[Code := {DoctorSocket}]
    requires patient.id == PatientSocket && patient.user == Patient
    modifies hub, hub.store, patient
    ensures admitted == Joined(Code)
    ensures joinNotice == [Emit(Sockets({DoctorSocket}), ParticipantJoined(PatientSocket, Patient.userId))]
    ensures hub.Valid() && hub.store.rooms == map["room-1" := OpenedRoom().(status := Active)]
    ensures hub.connections == map[Code := Connection(DoctorSocket, Some(PatientSocket), Opened + 2, "room-1")]
    ensures hub.members == map[Code := {DoctorSocket, PatientSocket}]
    ensures patient.roomCode == Some(Code)
  {
    AdmissionEffects(hub.store.rooms, hub.connections);
    admitted, joinNotice := hub.JoinRoom(patient, Code, "secret123", Opened + 2, PrefixMatches);
    assert MembersOf(hub.members, Code) == {DoctorSocket, PatientSocket};
    assert hub.members == map[Code := {DoctorSocket, PatientSocket}];
  }

  /** The doctor's offer reaches the patient only; then, at `dropAt`, the patient's connection drops. */
  method OfferAndDrop(hub: SignalingHub, doctor: Socket, patient: Socket, dropAt: int)
    returns (offered: Emit, timer: Option<ArmedCheck>)
    requires hub.connections == map[Code := Connection(DoctorSocket, Some(PatientSocket), Opened + 2, "room-1")]
    requires hub.members == map[Code := {DoctorSocket, PatientSocket}]
    requires doctor.id == DoctorSocket && patient.id == PatientSocket && patient.roomCode == Some(Code)
    modifies hub
    ensures offered == Emit(Sockets({PatientSocket}), OfferRelay("sdp-offer", DoctorSocket))
    ensures timer == Some(ArmedCheck(Code, dropAt + InactivityTimeoutMs))
    ensures hub.connections == map[Code := Connection(DoctorSocket, Some(PatientSocket), Opened + 3, "room-1")]
    ensures hub.members == map[Code := {DoctorSocket}]
  {
    assert DoctorSocket != PatientSocket by {
      assert DoctorSocket[5] != PatientSocket[5];
    }
    offered := hub.Offer(doctor, Code, "sdp-offer", Opened + 3);
    assert OthersIn(hub.members, Code, DoctorSocket) == {PatientSocket};
    var left;
    left, timer := hub.Disconnect(patient, dropAt);
    assert MembersOf(hub.members, Code) == {DoctorSocket};
    assert hub.members == map[Code := {DoctorSocket}];
  }

  /**
   * The one check the disconnect armed fires. It ends the room only when
   * the drop came after the last activity; a drop in the same millisecond
   * as the offer leaves exactly two minutes of silence at the check, which
   * then does nothing, and the check is never repeated.
   */
  method TimeOut(hub: SignalingHub, check: ArmedCheck, dropAt: int) returns (checked: seq<Emit>, finalStatus: Status)
    requires hub.Valid() && hub.store.rooms == map["room-1" := OpenedRoom().(status := Active)]
    requires hub.connections == map[Code := Connection(DoctorSocket, Some(PatientSocket), Opened + 3, "room-1")]
    requires hub.members == map[Code := {DoctorSocket}]
    requires check == ArmedCheck(Code, dropAt + InactivityTimeoutMs)
    modifies hub, hub.store
    ensures hub.Valid() && hub.members == old(hub.members)
    ensures dropAt <= Opened + 3 ==>
              checked == [] && finalStatus == Active &&
              hub.store.rooms == old(hub.store.rooms) && hub.connections == old(hub.connections)
    ensures dropAt > Opened + 3 ==>
              |checked| == 2 && checked[0] == Emit(Sockets({DoctorSocket}), RoomTimeout) && finalStatus == Ended &&
              hub.store.rooms == map["room-1" := OpenedRoom().(status := Ended)] && hub.connections == map[]
  {
    assert LookupCode(hub.store.rooms, Code) == Some(OpenedRoom().(status := Active)) by {
      assert hub.store.rooms["room-1"].code == Code;
    }
    checked := hub.FireTimeout(check.code, check.fireAt);
    finalStatus := hub.store.rooms["room-1"].status;
  }

  /**
   * The whole consultation, with the patient dropping at `dropAt`, no
   * earlier than the doctor's offer.
   */
  method Consultation(dropAt: int)
    returns (refused: JoinAck, admitted: JoinAck, joinNotice: seq<Emit>, offered: Emit,
             checked: seq<Emit>, finalStatus: Status)
    requires dropAt >= Opened + 3
    ensures refused == JoinFailed("Invalid password")
    ensures admitted == Joined("ABCD1234")
    ensures joinNotice == [Emit(Sockets({"sock-d"}), ParticipantJoined("sock-p", "P"))]
    ensures offered == Emit(Sockets({"sock-p"}), OfferRelay("sdp-offer", "sock-d"))
    ensures dropAt == Opened + 3 ==> checked == [] && finalStatus == Active
    ensures dropAt > Opened + 3 ==>
              |checked| == 2 && checked[0] == Emit(Sockets({"sock-d"}), RoomTimeout) && finalStatus == Ended
  {
    var hub, doctor, patient := Open();
    refused := Refuse(hub, patient);
    admitted, joinNotice := Admit(hub, patient);
    var timer;
    offered, timer := OfferAndDrop(hub, doctor, patient, dropAt);
    checked, finalStatus := TimeOut(hub, timer.value, dropAt);
  }
}
